=== FILE: README.md ===
# RetroArch (3DS fork): Material UI list engine, 3DS frontend decisions, logging gate

This project models three small pieces of sequential logic in RetroArch and
proves properties about them.

- **Material UI list engine** (`menu/drivers/materialui.c`). This covers:
  - how tall each menu entry is, from the number of lines in its sublabel;
  - where every entry sits: a running prefix sum of the heights;
  - the three-step clamp of the vertical scroll offset in `mui_render`;
  - hit-testing of the pointer and mouse against entries, using open
    intervals with the last match winning;
  - the integer "scroll to selection" computation and its consumers;
  - the three-tab cycle of `mui_list_cache`;
  - sorting a pointer release into header, tab bar or list;
  - the 4×11 on-screen keyboard hit-test;
  - the texture filename table;
  - the value-column width clamp;
  - the initial node state of `mui_list_insert`.
- **3DS frontend** (`frontend/drivers/platform_ctr.c`). This covers:
  - the fork-mode state machine and exit-spawn;
  - packing the NUL-separated argument block and building the application ID
    for the application jump;
  - the scan for the "DSP1" firmware word;
  - the audio driver fallback;
  - clearing the callbacks under a service pointer;
  - the drive list.
- **Logging** (`verbosity.c`). This covers:
  - the verbosity flag and console attach/detach;
  - one-shot initialisation of the log file;
  - gating of LOG, WARN and ERR, with output recorded as an abstract trace of
    events.

## How the model is written

- **Pixel values.**
  - Floating-point pixel quantities (`scroll_y`, `y`, `line_height`, the
    content height) are `real`, so the arithmetic is exact.
  - Unsigned C integers are `nat`. Their 32-bit wrap-around is written out
    (`Common.U32Sub`) wherever the source subtracts unsigned values that can
    underflow:
    - `height - header_height - tabs_height` in the scroll clamp;
    - `height - tabs_height` in the pointer release.
- **Conversions.**
  - The `(unsigned)` conversion of the negative or very large float `bottom`
    is undefined in C. The model uses the saturating conversion of the ARM
    target (`MuiScroll.FloatToU32`).
  - Float-to-int truncations are `Common.Trunc`.
- **Hit-tests.** The hit-test loops in `mui_render` and `mui_pointer_down`
  have no `break`, so the LAST matching entry wins (`MuiHitTest.LastHit`).
  `MuiHitTest.HitIsUnique` proves that at most one entry can match when the
  layout is contiguous.
- **Parameters.** Code outside the modelled files is a parameter:
  - `word_wrap` is `wrap: (string, int) -> string`;
  - `sscanf("0x%x")` is `scan: string -> nat`;
  - the DPI, the font size and the glyph widths are fields of
    `MuiLayout.Metrics`;
  - file contents and the success of `fopen`/`csndInit`/`ndspInit` are
    inputs.
- **Font-size multiplier.** The entry height multiplies the sublabel line
  count by the main font's size (`mui->font->size`, menu/drivers/materialui.c:721), not
  by the sublabel font's size. The model follows the code.

## Model

| member | source | states |
|---|---|---|
| Common.U32Sub | menu/drivers/materialui.c:810-811 | unsigned 32-bit subtraction: the plain difference when `b <= a`, otherwise the difference plus 2^32; always below 2^32 |
| MuiLayout.CountLines | menu/drivers/materialui.c:686-694 | the loop returns `LineCount(s)`: one more than the newlines before the first NUL, so at least 1 |
| MuiLayout.LineCountIsNewlinesPlusOne | menu/drivers/materialui.c:686-694 | for a C string without an embedded NUL, the line count is 1 plus the number of `'\n'` characters |
| MuiLayout.WrapColumns | menu/drivers/materialui.c:700-717 | the wrap width `(int)((width - 2*margin) / glyph_width2)` stays in int32 range and equals the plain quotient when `2*margin <= width < 2^32` and that quotient is below 2^31 |
| MuiLayout.SublabelLines | menu/drivers/materialui.c:709-719 | the line count is 0 exactly when the entry has no sublabel, and at least 1 when it has one |
| MuiLayout.EntryHeight | menu/drivers/materialui.c:709-721 | the height is the base row `scale/3` without a sublabel, and at least one main-font line taller with one |
| MuiLayout.EntryHeightCountsNewlines | menu/drivers/materialui.c:709-721 | with a NUL-free wrapped sublabel the height is exactly `scale/3 + lines * font_size`, where `lines` is one more than the newlines in the wrapped text |
| MuiLayout.ComputeEntriesBox | menu/drivers/materialui.c:697-725 | every node gets its entry's height; `y[0] == 0` and `y[i+1] == y[i] + h[i]`; every other node field is unchanged |
| MuiLayout.PositionsArePrefixSums | menu/drivers/materialui.c:706-724 | in a contiguous layout, each `y[i]` is the sum of the heights before it |
| MuiLayout.SumBoundsEach | menu/drivers/materialui.c:566-571 | a sum of non-negative heights is non-negative and at least each of its terms |
| MuiLayout.ContentHeight | menu/drivers/materialui.c:559-573 | the total height is 0 for an empty list; with non-negative heights it is non-negative and at least the height of every entry |
| MuiLayout.ContentHeightIsEnd | menu/drivers/materialui.c:559-573 | the content height is 0 for an empty list, otherwise the last entry's `y` plus its height |
| MuiHitTest.LastHit | menu/drivers/materialui.c:764-774 | the returned entry is hit by the strict interval test and no later entry is; nothing is returned exactly when no entry is hit |
| MuiHitTest.LaterEntriesStartBelow | menu/drivers/materialui.c:706-724 | with non-negative heights, an entry ends at or above the start of every later entry |
| MuiHitTest.HitIsUnique | menu/drivers/materialui.c:770-773 | in a contiguous layout with non-negative heights, two entries hit by the same y are the same entry |
| MuiHitTest.LastHitFindsTheEntry | menu/drivers/materialui.c:764-774 | if entry k is hit, the hit-test loop reports exactly k |
| MuiHitTest.BoundaryHitsNothing | menu/drivers/materialui.c:770-773 | a y exactly on an entry's top edge hits no entry at all |
| MuiScroll.FloatToU32 | menu/drivers/materialui.c:806-808 | the float-to-unsigned conversion of `bottom` stays in `[0, 2^32)`, and equals the truncation when the value is in range |
| MuiScroll.ClampScroll | menu/drivers/materialui.c:803-812 | after the three steps the offset is non-negative; it is 0 when the content fits the list area; otherwise it is at most `bottom`; it never grows; an in-range offset is unchanged; an offset past `bottom` becomes exactly `bottom` when the content overflows |
| MuiScroll.ClampIsIdempotent | menu/drivers/materialui.c:803-812 | clamping a clamped offset changes nothing |
| MuiScroll.ClampRange | menu/drivers/materialui.c:803-812 | when the chrome fits the screen and the overflow is below 2^32, the result is 0 exactly when the content fits, the offset is not positive, or the overflow is below one pixel |
| MuiScroll.ShortScreenPinsScroll | menu/drivers/materialui.c:810-812 | when `header + tabs_height` exceeds the screen height, the unsigned wrap makes the list area huge and pins the offset to 0 |
| MuiScroll.RenderFrame | menu/drivers/materialui.c:729-815 | the final offset is the three-step clamp of the offset after the pointer's acceleration is taken off; the pointer result is the last entry hit at the old offset and the mouse result the last entry hit at the offset after acceleration, each absent exactly when no entry is hit or there is no input; the menu start is reset to 0 |
| MuiScroll.RenderFrameFindsEntries | menu/drivers/materialui.c:764-812 | on a contiguous list the frame reports exactly the entry under the pointer and the entry under the mouse, and clamping its offset again changes nothing |
| MuiScroll.GetScroll | menu/drivers/materialui.c:1722-1739 | the result is 0 exactly when `line_height == 0` or `selection < half`; otherwise it is `(selection + 2 - half) * line_height` |
| MuiScroll.GetScrollMonotonic | menu/drivers/materialui.c:1722-1739 | the scroll target never decreases as the selection moves down |
| MuiScroll.GetScrollSteps | menu/drivers/materialui.c:1722-1739 | past the threshold, each step down scrolls exactly one line; at the threshold the target jumps from 0 to two lines |
| MuiScroll.NavigationSet | menu/drivers/materialui.c:1743-1760 | a tween is pushed only when scrolling is requested; it targets `GetScroll`, runs 10 frames with in-out-quad easing and tag -1 |
| MuiScroll.NavigationClear | menu/drivers/materialui.c:1769-1778 | the selection start and the scroll offset are both reset to 0, and nothing else changes |
| MuiScroll.PopulateEntries | menu/drivers/materialui.c:1791-1800 | the offset jumps straight to `GetScroll` of the selection |
| MuiScroll.PopulateMatchesNavigation | menu/drivers/materialui.c:1743-1800 | repopulating lands where the navigation tween would have ended |
| MuiTabs.PreswitchTabs | menu/drivers/materialui.c:1846-1882 | for a valid tab the stack top gets that tab's label (main menu, playlists or settings for tabs 0, 1, 2); its type becomes the playlists tab only for tab 1 and the settings menu otherwise |
| MuiTabs.PreswitchLabelsDistinct | menu/drivers/materialui.c:1861-1881 | different tabs give different stack labels |
| MuiTabs.ListCache | menu/drivers/materialui.c:1886-1931 | only horizontal lists change anything; the old selection is recorded; LEFT steps back and any other action steps forward modulo 3; a wrap sets `active.idx = 1` |
| MuiTabs.LeftThenRightRestores | menu/drivers/materialui.c:1895-1926 | LEFT followed by RIGHT returns to the original tab |
| MuiTabs.RightThenLeftRestores | menu/drivers/materialui.c:1895-1926 | RIGHT followed by LEFT returns to the original tab |
| MuiTabs.ThreeStepsCycle | menu/drivers/materialui.c:1895-1926 | three steps in the same direction return to the original tab |
| MuiTabs.TabScan | menu/drivers/materialui.c:2158-2173 | the scan of the tab columns from column i finds column k only when x lies in `[k*w, (k+1)*w)` |
| MuiTabs.TabAtColumn | menu/drivers/materialui.c:2158-2173 | a tab is found exactly when `x < 3*(width/3)`, and it is `x / (width/3)` |
| MuiTabs.DivIsColumn | menu/drivers/materialui.c:2160-2163 | x lies in column k exactly when `x / w == k` |
| MuiTabs.TabRelease | menu/drivers/materialui.c:2153-2174 | a click right of the last column changes nothing; otherwise the clicked tab is selected, the stack top is relabelled and the list switch fires when its callback exists |
| MuiTabs.SelectScan | menu/drivers/materialui.c:2180-2192 | the list scan reports a selection exactly when the pressed entry `ptr` is at or after the scan start, is hit, and has a select callback; the selection is `ptr` itself |
| MuiTabs.PointerUp | menu/drivers/materialui.c:2132-2196 | a header click cancels the current selection; a tab-bar click is a tab release; a list click fires SELECT exactly when the pressed entry `ptr` is hit and has a select callback, and otherwise does nothing; the old selection is never touched |
| MuiTabs.PointerDown | menu/drivers/materialui.c:2082-2126 | outside the list nothing is pressed; a pressed entry is hit; inside the list nothing is pressed only when no entry is hit; the pressed entry is the last one hit, no later entry being hit |
| MuiTabs.PressThenReleaseSelects | menu/drivers/materialui.c:2082-2196 | pressing and releasing on the same entry of a contiguous list presses that entry and then selects it |
| MuiOsk.KeyWidth | menu/drivers/materialui.c:498-502 | the key width is the smaller of `width/11` and the key height |
| MuiOsk.OskPtrAtPos | menu/drivers/materialui.c:488-516 | the result is -1 or a key index below 44; -1 without a handle; a returned index is the first key whose box strictly contains the point; -1 otherwise |
| MuiOsk.TruncOfQuotient | menu/drivers/materialui.c:506 | truncating the real quotient of naturals is the integer quotient |
| MuiOsk.RowOffsetIsIntegral | menu/drivers/materialui.c:506 | the row offset `(int)((i/11) * height/10.0)` equals `((i/11)*height)/10` in integers |
| MuiOsk.KeyLeftIsIntegral | menu/drivers/materialui.c:507 | a key's left edge is `(width - 11*pw)/2 + (i%11)*pw` |
| MuiOsk.KeyTopIsIntegral | menu/drivers/materialui.c:506-508 | a key's top edge is `(height + ph)/2 + ((i/11)*height)/10` |
| MuiOsk.RowGap | menu/drivers/materialui.c:506-508 | a later row starts at least one key height below an earlier row |
| MuiOsk.KeysDisjoint | menu/drivers/materialui.c:488-516 | no point lies strictly inside two different keys, so the first match is the only match |
| MuiTables.TexturePath | menu/drivers/materialui.c:221-328 | every texture id below the last has a filename except `MUI_TEXTURE_UPDATE`, which has no case and yields NULL |
| MuiTables.ValueColumns | menu/drivers/materialui.c:849-852 | the value width keeps the value when it fits in half the row; a wider value is cut to the most glyphs that fit in half the row; value, two spare glyphs and ticker fit the row, and one more ticker glyph would not |
| MuiTables.ValueColumnIsWidest | menu/drivers/materialui.c:849-852 | no value width that fits in half the row is wider than the chosen one, and no ticker that fits beside it is longer than the chosen one |
| MuiTables.DivBelow | menu/drivers/materialui.c:849-852 | a count whose glyphs overflow the space is larger than the number of glyphs that fit |
| MuiTables.TypeIcon | menu/drivers/materialui.c:2242-2277 | each recognised file type has an icon with a filename, and only unrecognised types have none |
| MuiTables.InsertNode | menu/drivers/materialui.c:2204-2280 | a new node starts as a base row at `y = 0`, with no switch texture and no text flag; its secondary icon is set exactly for a known type or a label icon |
| MuiTables.InsertedNodeIsBaseRow | menu/drivers/materialui.c:2231-2240 | a new node's height is the height of an entry without a sublabel, and it sits at the top |
| CtrFrontend.SetFork | frontend/drivers/platform_ctr.c:282-306 | CORE, CORE_WITH_ARGS and RESTART succeed; RESTART stores CORE; anything else fails and leaves the mode alone |
| CtrFrontend.SetForkIdempotent | frontend/drivers/platform_ctr.c:282-306 | setting the same fork mode twice is the same as setting it once |
| CtrFrontend.ExitSpawn | frontend/drivers/platform_ctr.c:309-326 | nothing happens in mode NONE; otherwise exec runs on the given path, loading content exactly in mode CORE_WITH_ARGS |
| CtrFrontend.RestartSpawnsWithoutContent | frontend/drivers/platform_ctr.c:294-326 | after a restart request, exit-spawn reloads the core without content |
| CtrFrontend.CString | frontend/drivers/platform_ctr.c:230-242 | the C string is the prefix before the first NUL, and the NUL ends it |
| CtrFrontend.StrlCpy | frontend/drivers/platform_ctr.c:232-241 | `strlcpy` copies a NUL-free prefix of the C string that fits the size and then stores the NUL; a short source is copied whole; a source of `size` bytes or more keeps exactly `size - 1` of them |
| CtrFrontend.PackArgs | frontend/drivers/platform_ctr.c:230-242 | the block fits in 0x2FC bytes and starts with the ELF path and its NUL; argc is 2 exactly when content is to be loaded and its path is non-empty, and the second argument is the copied content path |
| CtrFrontend.PackArgsKeepsContent | frontend/drivers/platform_ctr.c:238-241 | a content path that fits after the ELF path is passed whole, with its NUL |
| CtrFrontend.CStringOfCleanString | frontend/drivers/platform_ctr.c:230-242 | a string without NUL is its own C string |
| CtrFrontend.SplitArgsCons | frontend/drivers/platform_ctr.c:230-242 | splitting a block that starts with a NUL-terminated string yields that string first |
| CtrFrontend.CStringPrefix | frontend/drivers/platform_ctr.c:230-242 | the C string of a NUL-terminated string followed by anything is that string |
| CtrFrontend.SplitOne | frontend/drivers/platform_ctr.c:230-242 | a one-argument block splits back into that argument |
| CtrFrontend.SplitTwo | frontend/drivers/platform_ctr.c:230-242 | a two-argument block splits back into both arguments |
| CtrFrontend.PackArgsRoundTrip | frontend/drivers/platform_ctr.c:230-242 | splitting the packed block gives exactly argc arguments: the ELF path, then the copied content path |
| CtrFrontend.JumpSize | frontend/drivers/platform_ctr.c:270 | the jump passes `4 + len` bytes, never more than the 0x300-byte parameter block |
| CtrFrontend.AppIdFromLow | frontend/drivers/platform_ctr.c:264-265 | the high 32 bits of the ID are 0x00040000, its low byte is 0, and bits 8-31 are the low 24 bits of the scanned value |
| CtrFrontend.ReadAppIdTextAsWritten | frontend/drivers/platform_ctr.c:253-262 | as written: `fread` returns the whole file when it is shorter than 11 bytes and 11 otherwise, and the terminator goes at that index |
| CtrFrontend.AppIdTerminatorOverruns | frontend/drivers/platform_ctr.c:253-262 | the terminator lands outside the 11-byte buffer exactly when the ID file holds 11 bytes or more |
| CtrFrontend.AppIdTerminatorOverrunsOnElevenBytes | frontend/drivers/platform_ctr.c:253-262 | the 11-character ID `0x000123456` puts the terminator at index 11 |
| CtrFrontend.CorrectedReadAgreesInBounds | frontend/drivers/platform_ctr.c:253-262 | the corrected read keeps as many bytes as the read as written exactly when the latter's terminator stays inside the buffer |
| CtrFrontend.ReadAppIdText | frontend/drivers/platform_ctr.c:253-263 | corrected: at most 10 bytes are kept so that the terminator fits; the text is a prefix of the file, and the whole file when it is short; a file of 11 bytes or more keeps exactly 10 |
| CtrFrontend.Exec | frontend/drivers/platform_ctr.c:216-279 | the jump is skipped exactly when an ID file is named but empty; without a path the program ID is used; otherwise the ID is built from the file; the parameters are the packed arguments |
| CtrFrontend.FindMagic | frontend/drivers/platform_ctr.c:357-360 | the scan finds the first "DSP1" word from index k, or reports that there is none |
| CtrFrontend.DspSizeReadAsWritten | frontend/drivers/platform_ctr.c:357-361 | as written: the size is read from the word after the first "DSP1" word, whatever the buffer length |
| CtrFrontend.DspSizeReadOverruns | frontend/drivers/platform_ctr.c:357-361 | when "DSP1" is the last word, the size read lies past the buffer |
| CtrFrontend.CheckDspFirm | frontend/drivers/platform_ctr.c:333-380 | the firmware-present outcome happens exactly when the file exists; the no-code outcome exactly when it does not and there is no code; nothing is found exactly when no word from 0x40 on is "DSP1"; a first "DSP1" word at k followed by a size word always leads to the size check with start `k - 0x40` and that size; the size is unreadable exactly when the first such word is the last one; an image that runs past the buffer is not written; the write happens only when the file opens |
| CtrFrontend.FirstMagicIsFound | frontend/drivers/platform_ctr.c:357-360 | the scan from i stops at the first "DSP1" word at or after i |
| CtrFrontend.DspFirmWrittenFromMagic | frontend/drivers/platform_ctr.c:357-372 | a first "DSP1" word at k followed by a size word whose image fits is written from word `k - 0x40` with that size when the file can be created |
| CtrFrontend.DspSizeAgreesInBounds | frontend/drivers/platform_ctr.c:357-361 | wherever the size read as written stays inside the buffer, the corrected check uses the same size |
| CtrFrontend.AudioFallback | frontend/drivers/platform_ctr.c:436-445 | a failed csnd clears the DSP slot and moves the DSP driver to the csnd slot; a failed ndsp then clears whichever slot is targeted |
| CtrFrontend.DspSlotKeptIffBothStart | frontend/drivers/platform_ctr.c:436-445 | the DSP slot keeps the DSP driver exactly when both inits succeed |
| CtrFrontend.InitCallbacks | frontend/drivers/platform_ctr.c:393-398 | exec, exit-spawn and set-fork are available exactly when no service pointer is set |
| CtrFrontend.ParseDriveList | frontend/drivers/platform_ctr.c:461-480 | a null list gives -1; otherwise exactly one directory entry `"sdmc:/"` is appended, the earlier entries are kept, and 0 is returned |
| Verbosity.Enable | verbosity.c:55-62 | verbosity becomes on and no other flag changes; the console is attached only while no log file is set up |
| Verbosity.Disable | verbosity.c:64-71 | verbosity becomes off and no other flag changes; the console is detached only while no log file is set up |
| Verbosity.EnableDisableRestoresQuiet | verbosity.c:55-71 | enabling and then disabling a quiet logger gives back the same state |
| Verbosity.InitLogFile | verbosity.c:88-99 | a no-op once initialised; a NULL path selects stderr and leaves setup open; a path marks setup done even if the open fails, leaving a null target |
| Verbosity.InitLogFileIdempotent | verbosity.c:90-91 | after one call with a path, every later call changes nothing |
| Verbosity.NullPathLeavesSetupOpen | verbosity.c:93-98 | after a NULL path, a later call with a path still takes effect |
| Verbosity.LogV | verbosity.c:107-117 | nothing is emitted exactly when verbosity is off; otherwise one line goes to the current target, tagged with the given tag or the info tag for NULL |
| Verbosity.Log | verbosity.c:119-129 | LOG emits one info line when verbose and nothing otherwise |
| Verbosity.Warn | verbosity.c:144-155 | WARN emits one warning line when verbose and nothing otherwise |
| Verbosity.Err | verbosity.c:157-168 | ERR emits one error line when verbose and nothing otherwise |
| Verbosity.IsEnabledAfterRun | verbosity.c:55-76 | after any sequence of calls, `verbosity_is_enabled` reports the last enable or disable among them, or the starting flag when there is none |
| Verbosity.Step | verbosity.c:55-168 | only enabling turns verbosity on and only enabling or disabling changes it; set-up is never undone; a quiet logger writes no line; after set-up only lines are emitted, never a console attach or detach |
| Verbosity.QuietRunWritesNothing | verbosity.c:107-168 | a quiet logger that is never enabled writes nothing through any sequence of calls, and stays quiet |
| Verbosity.SetUpRunLeavesConsole | verbosity.c:55-99 | once the log file is set up, no sequence of calls touches the console, and set-up stays done |

## Left out

- Drawing is not modelled: quads, text, icons, scrollbar geometry, message boxes and the theme colours (including `hex32_to_rgba_normalized`). None of it affects layout or hit-testing.
- Font loading and glyph measurement (`mui_layout`) are left out. Font size, glyph widths and DPI are parameters.
- `word_wrap`, `string_split`, `msg_hash_to_str` and `sscanf` are library code outside these files. `word_wrap` and `sscanf` are function parameters.
- The sublabel provider's 255-byte buffer truncation is left out. The sublabel is taken as given.
- The animation engine and the 0.96 per-frame acceleration decay (materialui.c:776-782) are float numerics driven by input. Only the tween pushed by `mui_navigation_set` is recorded.
- IEEE rounding is not modelled. All float arithmetic is exact over `real`.
- The label-string cascade of `mui_list_insert` and the list building of `mui_list_push` are driven by external string tables. The chosen label icon is a parameter of `MuiTables.InsertNode`.
- `mui_get_core_title` depends on runloop state and is left out.
- MuiScroll.GetScroll: the `size_t` product `(selection + 2 - half) * line_height` (materialui.c:1738) is not wrapped at 2^32. The subtraction before it cannot wrap once `selection >= half`, but the product can overflow on the 3DS. For example, with `line_height` 65536 and height 0, selection 65533 gives 4294901760 and selection 65534 gives 0. `MuiScroll.GetScrollMonotonic` and `MuiScroll.GetScrollSteps` therefore hold only while the product stays below 2^32. The float return value is taken as exact.
- MuiLayout.EntryHeight: the unsigned product `lines * font->size` is not wrapped at 2^32.
- MuiOsk.RowOffsetIsIntegral: the unsigned product `(i/11) * height` is not wrapped at 2^32.
- MuiTables.ValueColumns: the unsigned product `value_len * glyph_width` is not wrapped at 2^32. The `(int)` cast of the unsigned difference that gives `ticker_limit` is taken as the mathematical difference.
- MuiTables.TexturePath: states which ids have a filename but not that the filenames are distinct or end in `.png`. A case-by-case proof of these facts over 50 literals was too costly.
- Null-handle guards (`if (!mui) return`) are modelled only where the return value can be observed (the keyboard returns -1). Elsewhere the handle is assumed present.
- 3DS hardware and file work is left out: framebuffers, LCD and service handles, romfs, `mkdir`, `frontend_ctr_get_environment_settings`, `frontend_ctr_deinit` and the APT jump itself. The outcomes that matter become inputs: file contents, open success and init success.
- CtrFrontend.Exec: builds the ID text with the corrected read `CtrFrontend.ReadAppIdText`, which keeps at most 10 bytes, where the source reads up to 11 and then writes past the buffer (see Findings). A failing `fopen` of the ID file (a NULL `fp` passed to `fread`) is not modelled; the file is taken to open.
- CtrFrontend.CheckDspFirm: models the corrected size read. It reports `SizeUnreadable` where the source reads the word after the buffer (see Findings).
- Logging output is recorded as events, not bytes. Formatting of the text by `vfprintf` and `fflush` is left out. The target is a NULL stream both before any `retro_main_log_file_init` (verbosity.c:51) and after a failed open. A line written while the target is NULL is still recorded as a `Line` to `NullStream`.
- `retro_main_log_file_deinit`, `verbosity_get_ptr` and `retro_main_log_file` expose raw pointers and are left out. The console attach/detach of `RARCH_INTERNAL` builds is taken as compiled in.

## Findings

| source | as written | input that shows it | evidently intended | confidence | as-written member | corrected member |
|---|---|---|---|---|---|---|
| frontend/drivers/platform_ctr.c:253-262 | `fread` may fill all 11 bytes of `app_ID_str`, then `app_ID_str[bytes_read] = '\0'` stores at index 11, one past the buffer | an ID file of 11 or more bytes, e.g. `0x000123456` | read at most 10 bytes, so the terminator always fits | not executed | CtrFrontend.AppIdTerminatorOverruns | CtrFrontend.ReadAppIdText |
| frontend/drivers/platform_ctr.c:357-361 | the size `ptr[1]` is read before any bound check, so a "DSP1" word in the last position reads one word past the scanned buffer | a code image whose only "DSP1" word is its last word | check that `ptr + 1` is inside the buffer before reading the size | not executed | CtrFrontend.DspSizeReadOverruns | CtrFrontend.CheckDspFirm |

=== FILE: common.dfy ===
/** Shared vocabulary: an optional value standing for a C pointer that may be
    NULL, and the 32-bit unsigned arithmetic the C code performs on
    `unsigned` and `size_t` quantities. */
module Common {

  /** A value that may be absent (a NULL pointer, a missing callback). */
  datatype Option<+T> = None | Some(value: T)

  /** 2^32: `unsigned` and `size_t` are 32 bits wide on the modelled target. */
  const U32_MODULUS: int := 0x1_0000_0000

  /** The largest `unsigned` value. */
  const U32_MAX: int := 0xFFFF_FFFF

  /** `a - b` evaluated in 32-bit unsigned arithmetic (wraps below zero). */
  function U32Sub(a: nat, b: nat): (r: nat)
    requires a < U32_MODULUS && b < U32_MODULUS
    ensures r < U32_MODULUS
    ensures b <= a ==> r == a - b
    ensures a < b ==> r == U32_MODULUS + a - b
  {
    (a - b) % U32_MODULUS
  }

  /** C truncation of a real toward zero. */
  function Trunc(x: real): (r: int)
    ensures 0.0 <= x ==> r as real <= x < r as real + 1.0
    ensures x < 0.0 ==> r as real - 1.0 < x <= r as real
  {
    if x >= 0.0 then x.Floor else -((-x).Floor)
  }

  /** Multiplying by the same natural number keeps the order. */
  lemma MulMonotonic(x: nat, y: nat, k: nat)
    requires x <= y
    ensures x * k <= y * k
  {
  }
}

=== FILE: ctr.dfy ===
/** Decision logic of the Nintendo 3DS frontend driver: the fork-mode
    state machine, the argument block and application id handed to the
    application jump, the scan of `code.bin` for the DSP firmware, the
    audio-driver fallback and the drive list. Hardware and file calls are
    replaced by their results, given as parameters. */
module CtrFrontend {
  import opened Common

  /** `enum frontend_fork`; any value the driver does not know is `ForkOther`. */
  datatype ForkMode = ForkNone | ForkCore | ForkCoreWithArgs | ForkRestart | ForkOther(code: nat)

  /** The modes `ctr_fork_mode` can hold. */
  predicate StoredMode(m: ForkMode)
  {
    m == ForkNone || m == ForkCore || m == ForkCoreWithArgs
  }

  /** `frontend_ctr_set_fork`: returns whether the request was accepted and
      the new stored mode. A restart is stored as a core fork, since the
      driver has no separate loader to restart into. */
  function SetFork(current: ForkMode, requested: ForkMode): (r: (bool, ForkMode))
    ensures r.0 <==> requested in {ForkCore, ForkCoreWithArgs, ForkRestart}
    ensures !r.0 ==> r.1 == current
    ensures r.0 ==> r.1 == (if requested == ForkRestart then ForkCore else requested)
    ensures StoredMode(current) ==> StoredMode(r.1)
  {
    match requested
    case ForkCore => (true, requested)
    case ForkCoreWithArgs => (true, requested)
    case ForkRestart => (true, ForkCore)
    case _ => (false, current)
  }

  /** Accepting a request twice is the same as accepting it once. */
  lemma SetForkIdempotent(current: ForkMode, requested: ForkMode)
    ensures var (_, once) := SetFork(current, requested);
            SetFork(once, requested).1 == once
  {
  }

  /** `frontend_ctr_exitspawn`: with no fork pending nothing happens;
      otherwise the driver execs `s`, loading content exactly when the
      pending fork carries arguments. Returns the arguments of the exec
      call. */
  function ExitSpawn(mode: ForkMode, s: string): (r: Option<(string, bool)>)
    ensures r.None? <==> mode == ForkNone
    ensures r.Some? ==> r.value.0 == s
    ensures r.Some? ==> (r.value.1 <==> mode == ForkCoreWithArgs)
  {
    if mode == ForkNone then None
    else Some((s, mode == ForkCoreWithArgs))
  }

  /** A restart request makes the next exit spawn the core without content. */
  lemma RestartSpawnsWithoutContent(current: ForkMode, s: string)
    ensures ExitSpawn(SetFork(current, ForkRestart).1, s) == Some((s, false))
  {
  }

  /** `elf_path_cst`: the path of the frontend's own executable. */
  const ELF_PATH: string := "sdmc:/retroarch/test.3dsx"
  /** `sizeof(param.args)`: 0x300 bytes of parameter block minus the
      4-byte argument count. */
  const ARGS_SIZE: nat := 0x2FC

  /** The C string held by `s`: everything before the first NUL. */
  function CString(s: string): (c: string)
    ensures |c| <= |s| && c == s[..|c|]
    ensures '\0' !in c
    ensures |c| < |s| ==> s[|c|] == '\0'
  {
    if |s| == 0 || s[0] == '\0' then [] else [s[0]] + CString(s[1..])
  }

  /** `strlcpy(dst, src, size)` followed by the NUL it always stores: the
      longest prefix of the C string `src` that leaves room for the NUL,
      then the NUL. */
  function StrlCpy(src: string, size: nat): (copied: string)
    requires size > 0
    ensures 0 < |copied| <= size
    ensures copied[|copied| - 1] == '\0'
    ensures |copied| - 1 <= |CString(src)|
    ensures copied[..|copied| - 1] == CString(src)[..|copied| - 1]
    ensures '\0' !in copied[..|copied| - 1]
    ensures |CString(src)| < size ==> copied == CString(src) + ['\0']
    ensures |CString(src)| >= size ==> |copied| == size
  {
    var c := CString(src);
    var n := if |c| < size then |c| else size - 1;
    c[..n] + ['\0']
  }

  /** The parameter block of the application jump: the argument count and
      the NUL-separated arguments (only the first `len` bytes of `args`
      are passed on). */
  datatype Params = Params(argc: nat, args: string)

  /** Splits a block of NUL-terminated strings back into the strings. */
  function SplitArgs(block: string): seq<string>
  {
    if |block| == 0 then []
    else
      var first := CString(block);
      if |first| == |block| then [first]
      else [first] + SplitArgs(block[|first| + 1..])
  }

  /** A path fit to be the first argument: a C string that leaves room
      in the block for a second one. */
  predicate ElfPathOk(elf: string)
  {
    '\0' !in elf && |elf| + 1 < ARGS_SIZE
  }

  /** The argument part of `frontend_ctr_exec`: the ELF path, and, when
      content is to be loaded and a content path is set, the content path,
      each copied with `strlcpy` into what is left of the block. The
      driver passes `ELF_PATH` as `elf`. */
  function PackArgs(elf: string, shouldLoadGame: bool, contentPath: string): (p: Params)
    requires ElfPathOk(elf)
    ensures |p.args| <= ARGS_SIZE
    ensures p.argc == 1 || p.argc == 2
    ensures p.argc == 2 <==> shouldLoadGame && CString(contentPath) != []
    ensures |p.args| > |elf| && p.args[..|elf| + 1] == elf + ['\0']
    ensures p.argc == 1 ==> p.args == elf + ['\0']
    ensures p.argc == 2 ==> p.args == elf + ['\0'] + StrlCpy(contentPath, ARGS_SIZE - |elf| - 1)
  {
    var first := StrlCpy(elf, ARGS_SIZE);
    CStringOfCleanString(elf);
    assert first == elf + ['\0'];
    if shouldLoadGame && CString(contentPath) != [] then
      var second := StrlCpy(contentPath, ARGS_SIZE - |first|);
      assert |first + second| <= ARGS_SIZE;
      Params(2, first + second)
    else
      Params(1, first)
  }

  /** A content path that fits is passed whole. */
  lemma PackArgsKeepsContent(elf: string, shouldLoadGame: bool, contentPath: string)
    requires ElfPathOk(elf)
    requires shouldLoadGame && CString(contentPath) != []
    requires |CString(contentPath)| < ARGS_SIZE - |elf| - 1
    ensures PackArgs(elf, shouldLoadGame, contentPath).args
            == elf + ['\0'] + CString(contentPath) + ['\0']
  {
    var p := PackArgs(elf, shouldLoadGame, contentPath);
    assert p.argc == 2;
    var room := ARGS_SIZE - |elf| - 1;
    assert StrlCpy(contentPath, room) == CString(contentPath) + ['\0'];
  }

  /** A string without NUL is its own C string. */
  lemma {:induction false} CStringOfCleanString(s: string)
    requires '\0' !in s
    ensures CString(s) == s
  {
    if |s| > 0 {
      assert '\0' !in s[1..];
      CStringOfCleanString(s[1..]);
    }
  }

  /** Splitting a block that starts with a NUL-terminated string gives that
      string followed by the split of the rest. */
  lemma SplitArgsCons(a: string, rest: string)
    requires '\0' !in a
    ensures SplitArgs(a + ['\0'] + rest) == [a] + SplitArgs(rest)
  {
    var block := a + ['\0'] + rest;
    CStringPrefix(a, rest);
    assert block[|a| + 1..] == rest;
  }

  /** The C string of `a` NUL `rest` is `a`. */
  lemma {:induction false} CStringPrefix(a: string, rest: string)
    requires '\0' !in a
    ensures CString(a + ['\0'] + rest) == a
  {
    if |a| > 0 {
      assert (a + ['\0'] + rest)[1..] == a[1..] + ['\0'] + rest;
      CStringPrefix(a[1..], rest);
    }
  }

  /** One NUL-terminated string splits back into itself. */
  lemma SplitOne(a: string)
    requires '\0' !in a
    ensures SplitArgs(a + ['\0']) == [a]
  {
    assert a + ['\0'] == a + ['\0'] + [];
    SplitArgsCons(a, []);
  }

  /** Two NUL-terminated strings split back into the two. */
  lemma SplitTwo(a: string, b: string)
    requires '\0' !in a && '\0' !in b
    ensures SplitArgs(a + ['\0'] + (b + ['\0'])) == [a, b]
  {
    SplitArgsCons(a, b + ['\0']);
    SplitOne(b);
  }

  /** The packed block splits back into exactly `argc` arguments: the ELF
      path, then the content path as far as it fit. */
  lemma PackArgsRoundTrip(elf: string, shouldLoadGame: bool, contentPath: string)
    requires ElfPathOk(elf)
    ensures var p := PackArgs(elf, shouldLoadGame, contentPath);
            var parts := SplitArgs(p.args);
            |parts| == p.argc && parts[0] == elf
            && (p.argc == 2 ==> |parts[1]| <= |CString(contentPath)|
                                && parts[1] == CString(contentPath)[..|parts[1]|])
  {
    var p := PackArgs(elf, shouldLoadGame, contentPath);
    if p.argc == 1 {
      SplitOne(elf);
    } else {
      var c := StrlCpy(contentPath, ARGS_SIZE - |elf| - 1);
      var body := c[..|c| - 1];
      assert c == body + ['\0'];
      SplitTwo(elf, body);
    }
  }

  /** The size handed to the jump: the argument count word plus the used
      part of the block. */
  function JumpSize(p: Params): (n: nat)
    requires |p.args| <= ARGS_SIZE
    ensures n <= 0x300
  {
    4 + |p.args|
  }

  /** The application id of a title whose low word is `low`: the high word
      is always 0x00040000, and the low word is `low` shifted left by 8 in
      32-bit arithmetic. */
  function AppIdFromLow(low: nat): (id: nat)
    requires low < U32_MODULUS
    ensures id / U32_MODULUS == 0x0004_0000
    ensures id % 256 == 0
    ensures (id % U32_MODULUS) / 256 == low % 0x100_0000
  {
    0x0004_0000_0000_0000 + (low * 256) % U32_MODULUS
  }

  /** Size of `app_ID_str`. */
  const APP_ID_BUFFER: nat := 11

  /** The read of the title file as written: up to 11 bytes are read, and
      the terminating NUL is stored at the index just past them. Returns
      the number of bytes read and that index. */
  function ReadAppIdTextAsWritten(file: string): (r: (nat, nat))
    ensures r.0 <= APP_ID_BUFFER && r.0 <= |file| && r.1 == r.0
    ensures |file| < APP_ID_BUFFER ==> r.0 == |file|
    ensures |file| >= APP_ID_BUFFER ==> r.0 == APP_ID_BUFFER
  {
    var n := if |file| < APP_ID_BUFFER then |file| else APP_ID_BUFFER;
    (n, n)
  }

  /** The NUL lands outside the 11-byte buffer exactly when the title file
      holds 11 bytes or more. */
  lemma AppIdTerminatorOverruns(file: string)
    ensures ReadAppIdTextAsWritten(file).1 >= APP_ID_BUFFER <==> |file| >= APP_ID_BUFFER
  {
  }

  /** One such file: an 11-character id. */
  lemma AppIdTerminatorOverrunsOnElevenBytes()
    ensures ReadAppIdTextAsWritten("0x000123456").1 == APP_ID_BUFFER
  {
  }

  /** The corrected read keeps the same text as the read as written
      exactly when that one stayed inside the buffer. */
  lemma CorrectedReadAgreesInBounds(file: string)
    ensures ReadAppIdTextAsWritten(file).1 < APP_ID_BUFFER
            <==> |ReadAppIdText(file)| == ReadAppIdTextAsWritten(file).0
  {
  }

  /** The read with room left for the terminator: at most 10 bytes, the
      text being the bytes read. */
  function ReadAppIdText(file: string): (text: string)
    ensures |text| < APP_ID_BUFFER && |text| <= |file|
    ensures text == file[..|text|]
    ensures |file| < APP_ID_BUFFER ==> text == file
    ensures |file| >= APP_ID_BUFFER ==> |text| == APP_ID_BUFFER - 1
  {
    if |file| < APP_ID_BUFFER then file else file[..APP_ID_BUFFER - 1]
  }

  /** The outcome of `frontend_ctr_exec` up to the jump. */
  datatype ExecOutcome =
    | ReadFailed
    | Jump(appId: nat, params: Params, size: nat)

  /** `frontend_ctr_exec`: packs the arguments and picks the title to jump
      to: the running program's own id when `path` is NULL or empty,
      otherwise the id read from the file at `path`. `file` is that file's
      contents and `scan` the `sscanf` of the text read, which is library
      code; a read of no bytes gives up before any jump. */
  function Exec(path: Option<string>, shouldLoadGame: bool, contentPath: string,
                programId: nat, file: string, scan: string -> nat): (r: ExecOutcome)
    requires forall t :: scan(t) < U32_MODULUS
    ensures r.ReadFailed? <==> (path.Some? && CString(path.value) != [] && |file| == 0)
    ensures r.Jump? && (path.None? || CString(path.value) == []) ==> r.appId == programId
    ensures r.Jump? && path.Some? && CString(path.value) != []
            ==> r.appId == AppIdFromLow(scan(ReadAppIdText(file)))
    ensures r.Jump? ==> r.params == PackArgs(ELF_PATH, shouldLoadGame, contentPath)
                        && r.size == 4 + |r.params.args| && r.size <= 0x300
  {
    assert ElfPathOk(ELF_PATH);
    var params := PackArgs(ELF_PATH, shouldLoadGame, contentPath);
    if path.None? || CString(path.value) == [] then Jump(programId, params, JumpSize(params))
    else
      var text := ReadAppIdText(file);
      if |text| == 0 then ReadFailed
      else Jump(AppIdFromLow(scan(text)), params, JumpSize(params))
  }

  /** "DSP1" read as a little-endian word. */
  const DSP1_MAGIC: nat := 0x3150_5344
  /** The scan starts 0x40 words into `code.bin`. */
  const SCAN_START: nat := 0x40

  /** The outcome of `ctr_check_dspfirm`. */
  datatype DspOutcome =
    | FirmwarePresent              // dspfirm.cdc already exists
    | NoCode                       // code.bin missing or unreadable
    | NotFound                     // no "DSP1" word from word 0x40 on
    | SizeUnreadable(magicAt: nat) // "DSP1" is the last word: no size word follows
    | TooLarge(start: nat, size: nat)
    | WriteFailed(start: nat, size: nat)
    | Written(start: nat, size: nat)

  /** The first index from `k` on whose word is the "DSP1" magic. */
  function FindMagic(words: seq<nat>, k: nat): (r: Option<nat>)
    requires k <= |words|
    ensures r.Some? ==> k <= r.value < |words| && words[r.value] == DSP1_MAGIC
    ensures r.Some? ==> forall j :: k <= j < r.value ==> words[j] != DSP1_MAGIC
    ensures r.None? ==> forall j :: k <= j < |words| ==> words[j] != DSP1_MAGIC
    decreases |words| - k
  {
    if k == |words| then None
    else if words[k] == DSP1_MAGIC then Some(k)
    else FindMagic(words, k + 1)
  }

  /** The scan as written: the size is the word after the magic, even when
      the magic is the last word and that word lies past the buffer;
      `beyond` stands for whatever memory follows it. Returns the index
      read and the size used. */
  function DspSizeReadAsWritten(words: seq<nat>, beyond: nat): (r: Option<(nat, nat)>)
    requires SCAN_START <= |words|
    ensures r.Some? <==> FindMagic(words, SCAN_START).Some?
    ensures r.Some? ==> r.value.0 == FindMagic(words, SCAN_START).value + 1
  {
    match FindMagic(words, SCAN_START)
    case None => None
    case Some(k) => Some((k + 1, if k + 1 < |words| then words[k + 1] else beyond))
  }

  /** A code image whose only "DSP1" word is its last word makes the size
      read land past the end of the buffer. */
  lemma DspSizeReadOverruns(beyond: nat)
    ensures var words := seq(SCAN_START, _ => 0) + [DSP1_MAGIC];
            DspSizeReadAsWritten(words, beyond) == Some((|words|, beyond))
  {
    var words := seq(SCAN_START, _ => 0) + [DSP1_MAGIC];
    assert FindMagic(words, SCAN_START) == Some(SCAN_START);
  }

  /** `ctr_check_dspfirm` with the size read kept inside the buffer:
      nothing happens when `dspfirm.cdc` exists or `code.bin` cannot be
      read; otherwise the first "DSP1" word from word 0x40 on is found at
      `k`, the size is the word after it, and the firmware (from word
      `k - 0x40`, `size` bytes) is written unless it would run past the
      end of the code. Only the first magic word is considered. */
  function CheckDspFirm(firmExists: bool, code: Option<seq<nat>>, canWrite: bool): (r: DspOutcome)
    ensures firmExists ==> r == FirmwarePresent
    ensures !firmExists && code.None? ==> r == NoCode
    ensures r.FirmwarePresent? ==> firmExists
    ensures r.NoCode? ==> !firmExists && code.None?
    ensures r.NotFound? ==> code.Some? && forall j :: SCAN_START <= j < |code.value| ==> code.value[j] != DSP1_MAGIC
    ensures r.TooLarge? || r.WriteFailed? || r.Written? ==>
            && code.Some?
            && var k := r.start + SCAN_START;
            && k + 1 < |code.value|
            && code.value[k] == DSP1_MAGIC
            && (forall j :: SCAN_START <= j < k ==> code.value[j] != DSP1_MAGIC)
            && r.size == code.value[k + 1]
    ensures r.TooLarge? <==> (r.TooLarge? || r.WriteFailed? || r.Written?) && r.start + r.size / 4 > |code.value|
    ensures r.Written? ==> canWrite
    ensures r.WriteFailed? ==> !canWrite
    ensures r.NotFound? <==>
            (!firmExists && code.Some?
             && forall j :: SCAN_START <= j < |code.value| ==> code.value[j] != DSP1_MAGIC)
    ensures r.SizeUnreadable? ==>
            (!firmExists && code.Some? && SCAN_START < |code.value|
             && r.magicAt == |code.value| - 1
             && FindMagic(code.value, SCAN_START) == Some(|code.value| - 1))
    ensures !firmExists && code.Some? && SCAN_START <= |code.value|
            && FindMagic(code.value, SCAN_START).Some?
            && FindMagic(code.value, SCAN_START).value + 1 < |code.value|
            ==> (r.TooLarge? || r.WriteFailed? || r.Written?)
                && r.start == FindMagic(code.value, SCAN_START).value - SCAN_START
    ensures !firmExists && code.Some? && SCAN_START <= |code.value|
            && FindMagic(code.value, SCAN_START) == Some(|code.value| - 1)
            ==> r == SizeUnreadable(|code.value| - 1)
  {
    if firmExists then FirmwarePresent
    else match code
      case None => NoCode
      case Some(words) =>
        if |words| < SCAN_START then NotFound
        else match FindMagic(words, SCAN_START)
          case None => NotFound
          case Some(k) =>
            if k + 1 == |words| then SizeUnreadable(k)
            else
              var size := words[k + 1];
              var start := k - SCAN_START;
              if start + size / 4 > |words| then TooLarge(start, size)
              else if !canWrite then WriteFailed(start, size)
              else Written(start, size)
  }

  /** A "DSP1" word at `k`, the first from word 0x40 on, followed by a size
      word whose image fits in the code, is written out from word
      `k - 0x40` with that size when the file can be created. */
  lemma {:induction false} DspFirmWrittenFromMagic(words: seq<nat>, k: nat)
    requires SCAN_START <= k && k + 1 < |words|
    requires words[k] == DSP1_MAGIC
    requires forall j :: SCAN_START <= j < k ==> words[j] != DSP1_MAGIC
    requires (k - SCAN_START) + words[k + 1] / 4 <= |words|
    ensures CheckDspFirm(false, Some(words), true) == Written(k - SCAN_START, words[k + 1])
  {
    FirstMagicIsFound(words, SCAN_START, k);
  }

  /** The scan from `i` stops at the first magic word `k` at or after it. */
  lemma {:induction false} FirstMagicIsFound(words: seq<nat>, i: nat, k: nat)
    requires i <= k < |words| && words[k] == DSP1_MAGIC
    requires forall j :: i <= j < k ==> words[j] != DSP1_MAGIC
    ensures FindMagic(words, i) == Some(k)
    decreases k - i
  {
    if i < k {
      FirstMagicIsFound(words, i + 1, k);
    }
  }

  /** Wherever the size read as written stays inside the buffer, the
      corrected check uses that same size word. */
  lemma DspSizeAgreesInBounds(words: seq<nat>, beyond: nat, canWrite: bool)
    requires SCAN_START <= |words|
    requires DspSizeReadAsWritten(words, beyond).Some?
    requires DspSizeReadAsWritten(words, beyond).value.0 < |words|
    ensures var r := CheckDspFirm(false, Some(words), canWrite);
            (r.TooLarge? || r.WriteFailed? || r.Written?)
            && r.size == DspSizeReadAsWritten(words, beyond).value.1
  {
  }

  /** Audio drivers the two audio slots can hold. */
  datatype AudioDriver = DspDriver | CsndDriver | NullDriver

  /** The two audio driver slots, `audio_ctr_dsp` and `audio_ctr_csnd`. */
  datatype AudioSlots = AudioSlots(dsp: AudioDriver, csnd: AudioDriver)

  /** The fallback in `frontend_ctr_init`: when the CSND service fails, the
      DSP driver moves into the CSND slot and the DSP slot is nulled; when
      the NDSP service then fails, the slot the DSP driver now sits in is
      nulled. */
  function AudioFallback(slots: AudioSlots, csndOk: bool, ndspOk: bool): (r: AudioSlots)
    ensures csndOk && ndspOk ==> r == slots
    ensures !csndOk ==> r.dsp == NullDriver
    ensures csndOk && !ndspOk ==> r == slots.(dsp := NullDriver)
    ensures !csndOk && ndspOk ==> r.csnd == slots.dsp
    ensures !csndOk && !ndspOk ==> r.csnd == NullDriver
  {
    var moved := if csndOk then slots else AudioSlots(NullDriver, slots.dsp);
    if ndspOk then moved
    else if csndOk then moved.(dsp := NullDriver)
    else moved.(csnd := NullDriver)
  }

  /** The DSP slot keeps its driver exactly when both services start. */
  lemma DspSlotKeptIffBothStart(csndOk: bool, ndspOk: bool)
    ensures AudioFallback(AudioSlots(DspDriver, CsndDriver), csndOk, ndspOk).dsp == DspDriver
            <==> csndOk && ndspOk
  {
  }

  /** The frontend callbacks `frontend_ctr_init` may disable. */
  datatype Callbacks = Callbacks(exec: bool, exitSpawn: bool, setFork: bool)

  /** When the program runs under a service loader (`__service_ptr` set),
      exec, exit-spawn and set-fork are removed; otherwise all stay. */
  function InitCallbacks(servicePtrSet: bool): (c: Callbacks)
    ensures c.exec == c.exitSpawn == c.setFork == !servicePtrSet
  {
    if servicePtrSet then Callbacks(false, false, false) else Callbacks(true, true, true)
  }

  /** Message ids the drive-list entry may carry. */
  datatype EnumIdx = DetectCoreListPushDir | MsgUnknown

  /** One entry of a file list: path, label id, enum index and file type. */
  datatype DirEntry = DirEntry(path: string, labelIdx: EnumIdx, enumIdx: EnumIdx, isDirectory: bool)

  /** `frontend_ctr_parse_drive_list`: -1 for a NULL list; otherwise the SD
      card root is appended as a directory entry and 0 is returned. */
  function ParseDriveList(list: Option<seq<DirEntry>>, loadContent: bool): (r: (int, Option<seq<DirEntry>>))
    ensures list.None? <==> r.0 == -1
    ensures list.None? ==> r.1 == None
    ensures list.Some? ==> r.0 == 0 && r.1.Some? && |r.1.value| == |list.value| + 1
    ensures list.Some? ==> r.1.value[..|list.value|] == list.value
    ensures list.Some? ==> r.1.value[|list.value|].path == "sdmc:/" && r.1.value[|list.value|].isDirectory
    ensures list.Some? ==> (r.1.value[|list.value|].enumIdx == DetectCoreListPushDir <==> loadContent)
  {
    match list
    case None => (-1, None)
    case Some(entries) =>
      var idx := if loadContent then DetectCoreListPushDir else MsgUnknown;
      (0, Some(entries + [DirEntry("sdmc:/", DetectCoreListPushDir, idx, true)]))
  }
}

=== FILE: handle.dfy ===
/** The state of the Material UI driver that the layout, scroll and tab
    logic reads and writes (the relevant part of `mui_handle_t`), plus the
    screen geometry it is handed each frame. */
module MuiHandle {
  import opened Common

  /** Tab bookkeeping (`categories` in `mui_handle_t`). */
  datatype Categories = Categories(
    activeIdx: nat,
    activeIdxOld: nat,
    selectionPtrOld: nat,
    selectionPtr: nat)

  /** The driver state: tab-bar height and row height (both `unsigned`),
      the vertical scroll offset and the tab bookkeeping. */
  datatype Handle = Handle(
    tabsHeight: nat,
    lineHeight: nat,
    scrollY: real,
    categories: Categories)

  /** Screen size and header height, all `unsigned` in the source. */
  datatype Screen = Screen(width: nat, height: nat, header: nat)
  {
    predicate Valid()
    {
      width < U32_MODULUS && height < U32_MODULUS && header < U32_MODULUS
    }
  }

  /** The three tabs of the menu. */
  const TAB_MAIN: nat := 0
  const TAB_PLAYLISTS: nat := 1
  const TAB_SETTINGS: nat := 2
  /** `MUI_SYSTEM_TAB_END`, the index of the last tab. */
  const TAB_END: nat := TAB_SETTINGS
}

=== FILE: hittest.dfy ===
/** Hit-testing a screen row against the laid-out entries, as done in
    `mui_render`, `mui_pointer_down` and `mui_pointer_up`: an entry is hit
    when the row lies strictly between its top and bottom edge on screen. */
module MuiHitTest {
  import opened Common
  import opened MuiLayout

  /** Entry `n` is under screen row `py` when the list is scrolled by
      `scrollY` below a header of height `header`. Both ends are open. */
  predicate Hits(n: Node, scrollY: real, header: nat, py: real)
  {
    -scrollY + header as real + n.y < py < -scrollY + header as real + n.y + n.lineHeight
  }

  /** The scan over all entries without a `break`: the last entry hit is
      the one reported, None when no entry is hit. */
  function LastHit(nodes: seq<Node>, scrollY: real, header: nat, py: real): (r: Option<nat>)
    ensures r.Some? ==> r.value < |nodes| && Hits(nodes[r.value], scrollY, header, py)
    ensures r.Some? ==> forall j :: r.value < j < |nodes| ==> !Hits(nodes[j], scrollY, header, py)
    ensures r.None? <==> forall j :: 0 <= j < |nodes| ==> !Hits(nodes[j], scrollY, header, py)
  {
    if |nodes| == 0 then None
    else if Hits(nodes[|nodes| - 1], scrollY, header, py) then Some(|nodes| - 1)
    else LastHit(nodes[..|nodes| - 1], scrollY, header, py)
  }

  /** All entry heights are non-negative (the DPI scale is). */
  ghost predicate NonNegativeHeights(nodes: seq<Node>)
  {
    forall i :: 0 <= i < |nodes| ==> nodes[i].lineHeight >= 0.0
  }

  /** In a contiguous layout with non-negative heights, an entry starts no
      higher than any earlier entry ends. */
  lemma {:induction false} LaterEntriesStartBelow(nodes: seq<Node>, i: nat, j: nat)
    requires Contiguous(nodes) && NonNegativeHeights(nodes)
    requires i < j < |nodes|
    ensures nodes[i].y + nodes[i].lineHeight <= nodes[j].y
    decreases j - i
  {
    if j > i + 1 {
      LaterEntriesStartBelow(nodes, i, j - 1);
    }
  }

  /** No row hits two entries of a contiguous layout. */
  lemma HitIsUnique(nodes: seq<Node>, scrollY: real, header: nat, py: real, i: nat, j: nat)
    requires Contiguous(nodes) && NonNegativeHeights(nodes)
    requires i < |nodes| && j < |nodes|
    requires Hits(nodes[i], scrollY, header, py) && Hits(nodes[j], scrollY, header, py)
    ensures i == j
  {
    if i < j {
      LaterEntriesStartBelow(nodes, i, j);
    } else if j < i {
      LaterEntriesStartBelow(nodes, j, i);
    }
  }

  /** So the scan reports exactly the entry under the row, whichever it is. */
  lemma LastHitFindsTheEntry(nodes: seq<Node>, scrollY: real, header: nat, py: real, k: nat)
    requires Contiguous(nodes) && NonNegativeHeights(nodes)
    requires k < |nodes| && Hits(nodes[k], scrollY, header, py)
    ensures LastHit(nodes, scrollY, header, py) == Some(k)
  {
    var r := LastHit(nodes, scrollY, header, py);
    HitIsUnique(nodes, scrollY, header, py, k, r.value);
  }

  /** A row lying exactly on the top edge of an entry hits no entry at all. */
  lemma BoundaryHitsNothing(nodes: seq<Node>, scrollY: real, header: nat, k: nat)
    requires Contiguous(nodes) && NonNegativeHeights(nodes)
    requires k < |nodes|
    ensures LastHit(nodes, scrollY, header, -scrollY + header as real + nodes[k].y) == None
  {
    var py := -scrollY + header as real + nodes[k].y;
    forall j | 0 <= j < |nodes|
      ensures !Hits(nodes[j], scrollY, header, py)
    {
      if j < k {
        LaterEntriesStartBelow(nodes, j, k);
      } else if k < j {
        LaterEntriesStartBelow(nodes, k, j);
      }
    }
  }
}

=== FILE: layout.dfy ===
/** Entry layout of the Material UI menu driver: the height of every entry
    (one base row plus one font line per wrapped sublabel line), the
    vertical position of every entry as a running sum of the heights above
    it, and the total height of the scrollable content. */
module MuiLayout {
  import opened Common

  /** Per-entry layout record (`mui_node_t`). Texture handles are opaque
      numbers; only `lineHeight` and `y` take part in layout. */
  datatype Node = Node(
    lineHeight: real,
    y: real,
    textureSwitchSet: bool,
    textureSwitch: nat,
    textureSwitch2Set: bool,
    textureSwitch2: nat,
    switchIsOn: bool,
    doDrawText: bool)

  /** What the entry provider reports for one entry: its sublabel, or None
      when the provider says the entry has none. */
  datatype Entry = Entry(sublabel: Option<string>)

  /** Metrics the layout reads: the display's DPI scale, the size of the
      main (label) font, the viewport width, the margin and the glyph width
      of the sublabel font. */
  datatype Metrics = Metrics(
    scaleFactor: real,
    fontSize: nat,
    width: int,
    margin: nat,
    glyphWidth2: nat)

  /** Number of '\n' characters before the first NUL, i.e. in the C string
      that `s` holds. */
  function NewlinesBeforeNul(s: string): nat
  {
    if |s| == 0 || s[0] == '\0' then 0
    else (if s[0] == '\n' then 1 else 0) + NewlinesBeforeNul(s[1..])
  }

  /** Reference count of the lines of a C string: one more than its newlines. */
  function LineCount(s: string): nat
  {
    1 + NewlinesBeforeNul(s)
  }

  /** `mui_count_lines`: walks the string up to its terminator and counts
      one line plus one per newline. */
  method CountLines(s: string) returns (lines: nat)
    ensures lines == LineCount(s)
    ensures lines >= 1
  {
    lines := 1;
    var c := 0;
    while c < |s| && s[c] != '\0'
      invariant 0 <= c <= |s|
      invariant lines + NewlinesBeforeNul(s[c..]) == LineCount(s)
    {
      assert s[c..][1..] == s[c + 1..];
      if s[c] == '\n' {
        lines := lines + 1;
      }
      c := c + 1;
    }
  }

  /** When the string holds no NUL, its line count is one more than the
      number of newlines it contains. */
  lemma {:induction false} LineCountIsNewlinesPlusOne(s: string)
    requires '\0' !in s
    ensures LineCount(s) == 1 + multiset(s)['\n']
  {
    if |s| > 0 {
      assert s == [s[0]] + s[1..];
      assert multiset(s) == multiset{s[0]} + multiset(s[1..]);
      LineCountIsNewlinesPlusOne(s[1..]);
    }
  }

  /** `usable_width / glyph_width2`, the column count handed to the word
      wrapper: the usable width is `width - 2*margin` in unsigned
      arithmetic, and the quotient is cast to a 32-bit `int`. */
  function WrapColumns(m: Metrics): (cols: int)
    requires m.glyphWidth2 > 0
    requires 2 * m.margin < U32_MODULUS
    ensures -0x8000_0000 <= cols < 0x8000_0000
    ensures 2 * m.margin <= m.width < U32_MODULUS
            && (m.width - 2 * m.margin) / m.glyphWidth2 < 0x8000_0000
            ==> cols == (m.width - 2 * m.margin) / m.glyphWidth2
  {
    var usable := (m.width - 2 * m.margin) % U32_MODULUS;
    var q := usable / m.glyphWidth2;
    if q < 0x8000_0000 then q else q - U32_MODULUS
  }

  /** Number of sublabel lines an entry shows: 0 without a sublabel, else
      the line count of the wrapped sublabel. `wrap` is the word wrapper. */
  function SublabelLines(e: Entry, cols: int, wrap: (string, int) -> string): (lines: nat)
    ensures e.sublabel.None? <==> lines == 0
  {
    match e.sublabel
    case None => 0
    case Some(s) => LineCount(wrap(s, cols))
  }

  /** Height of one entry: a base row of a third of the DPI scale plus one
      main-font line per sublabel line. */
  function EntryHeight(e: Entry, m: Metrics, wrap: (string, int) -> string): (h: real)
    requires m.glyphWidth2 > 0 && 2 * m.margin < U32_MODULUS
    ensures e.sublabel.None? ==> h == m.scaleFactor / 3.0
    ensures e.sublabel.Some? ==> h >= m.scaleFactor / 3.0 + m.fontSize as real
  {
    var lines := SublabelLines(e, WrapColumns(m), wrap);
    m.scaleFactor / 3.0 + (lines * m.fontSize) as real
  }

  /** With a NUL-free wrapped sublabel, an entry is a third of the scale
      tall plus one main-font line per wrapped line, the lines being one
      more than the newlines the wrapper inserted. */
  lemma EntryHeightCountsNewlines(e: Entry, m: Metrics, wrap: (string, int) -> string, t: string)
    requires m.glyphWidth2 > 0 && 2 * m.margin < U32_MODULUS
    requires e.sublabel == Some(t) && '\0' !in wrap(t, WrapColumns(m))
    ensures EntryHeight(e, m, wrap)
            == m.scaleFactor / 3.0 + ((1 + multiset(wrap(t, WrapColumns(m)))['\n']) * m.fontSize) as real
  {
    LineCountIsNewlinesPlusOne(wrap(t, WrapColumns(m)));
  }

  /** Sum of a sequence of heights, accumulated front to back. */
  function Sum(hs: seq<real>): real
  {
    if |hs| == 0 then 0.0 else Sum(hs[..|hs| - 1]) + hs[|hs| - 1]
  }

  /** The heights of a list of nodes, in order. */
  function Heights(nodes: seq<Node>): (hs: seq<real>)
    ensures |hs| == |nodes|
    ensures forall i :: 0 <= i < |nodes| ==> hs[i] == nodes[i].lineHeight
  {
    seq(|nodes|, i requires 0 <= i < |nodes| => nodes[i].lineHeight)
  }

  /** A sum of non-negative heights is non-negative and at least each of
      them. */
  lemma {:induction false} SumBoundsEach(hs: seq<real>)
    ensures (forall i :: 0 <= i < |hs| ==> hs[i] >= 0.0)
            ==> Sum(hs) >= 0.0 && forall i :: 0 <= i < |hs| ==> hs[i] <= Sum(hs)
  {
    if |hs| > 0 {
      SumBoundsEach(hs[..|hs| - 1]);
    }
  }

  /** `mui_content_height`: the total height of the scrollable content. */
  function ContentHeight(nodes: seq<Node>): (total: real)
    ensures |nodes| == 0 ==> total == 0.0
    ensures (forall i :: 0 <= i < |nodes| ==> nodes[i].lineHeight >= 0.0)
            ==> total >= 0.0 && forall i :: 0 <= i < |nodes| ==> nodes[i].lineHeight <= total
  {
    SumBoundsEach(Heights(nodes));
    Sum(Heights(nodes))
  }

  /** Nodes are laid out contiguously from 0: each starts where the
      previous one ends. */
  ghost predicate Contiguous(nodes: seq<Node>)
  {
    && (|nodes| > 0 ==> nodes[0].y == 0.0)
    && (forall i :: 0 <= i < |nodes| - 1 ==> nodes[i + 1].y == nodes[i].y + nodes[i].lineHeight)
  }

  /** Only the layout fields of two nodes may differ. */
  ghost predicate SameDecoration(a: Node, b: Node)
  {
    a.(lineHeight := 0.0, y := 0.0) == b.(lineHeight := 0.0, y := 0.0)
  }

  /** `mui_compute_entries_box`: gives every node its entry's height and,
      as its position, the running sum of the heights above it
      (see `PositionsArePrefixSums`). */
  method ComputeEntriesBox(nodes: seq<Node>, entries: seq<Entry>, m: Metrics,
                           wrap: (string, int) -> string)
    returns (laid: seq<Node>)
    requires |nodes| == |entries|
    requires m.glyphWidth2 > 0 && 2 * m.margin < U32_MODULUS
    ensures |laid| == |nodes|
    ensures forall i :: 0 <= i < |laid| ==> laid[i].lineHeight == EntryHeight(entries[i], m, wrap)
    ensures forall i :: 0 <= i < |laid| ==> SameDecoration(laid[i], nodes[i])
    ensures Contiguous(laid)
  {
    laid := [];
    var sum := 0.0;
    var i := 0;
    while i < |nodes|
      invariant 0 <= i <= |nodes| && |laid| == i
      invariant i == 0 ==> sum == 0.0
      invariant i > 0 ==> sum == laid[i - 1].y + laid[i - 1].lineHeight
      invariant forall j :: 0 <= j < i ==> laid[j].lineHeight == EntryHeight(entries[j], m, wrap)
      invariant forall j :: 0 <= j < i ==> SameDecoration(laid[j], nodes[j])
      invariant Contiguous(laid)
    {
      var h := EntryHeight(entries[i], m, wrap);
      laid := laid + [nodes[i].(lineHeight := h, y := sum)];
      sum := sum + h;
      i := i + 1;
    }
  }

  /** In a contiguous layout every entry starts at the sum of the heights
      of the entries before it. */
  lemma {:induction false} PositionsArePrefixSums(nodes: seq<Node>)
    requires Contiguous(nodes)
    ensures forall i :: 0 <= i < |nodes| ==> nodes[i].y == Sum(Heights(nodes)[..i])
  {
    if |nodes| > 0 {
      var n := |nodes|;
      var init := nodes[..n - 1];
      assert Contiguous(init);
      PositionsArePrefixSums(init);
      forall i | 0 <= i < n
        ensures nodes[i].y == Sum(Heights(nodes)[..i])
      {
        if i < n - 1 {
          assert Heights(nodes)[..i] == Heights(init)[..i];
        } else if i > 0 {
          assert Heights(nodes)[..i - 1] == Heights(init)[..i - 1];
          PrefixSumStep(nodes, i - 1);
        }
      }
    }
  }

  /** One step of the prefix sum: the heights up to entry i+1 add entry i's. */
  lemma PrefixSumStep(nodes: seq<Node>, i: nat)
    requires i + 1 < |nodes|
    requires nodes[i].y == Sum(Heights(nodes)[..i])
    requires nodes[i + 1].y == nodes[i].y + nodes[i].lineHeight
    ensures nodes[i + 1].y == Sum(Heights(nodes)[..i + 1])
  {
    assert Heights(nodes)[..i + 1][..i] == Heights(nodes)[..i];
  }

  /** The content height of a contiguous layout is where its last entry
      ends, and 0 for an empty list. */
  lemma {:induction false} ContentHeightIsEnd(nodes: seq<Node>)
    requires Contiguous(nodes)
    ensures |nodes| == 0 ==> ContentHeight(nodes) == 0.0
    ensures |nodes| > 0 ==> ContentHeight(nodes) == nodes[|nodes| - 1].y + nodes[|nodes| - 1].lineHeight
  {
    if |nodes| > 0 {
      var init := nodes[..|nodes| - 1];
      assert Heights(nodes)[..|nodes| - 1] == Heights(init);
      assert Contiguous(init);
      ContentHeightIsEnd(init);
    }
  }
}

=== FILE: osk.dfy ===
/** The on-screen keyboard hit-test of the Material UI driver
    (`mui_osk_ptr_at_pos`): 44 keys in 4 rows of 11, centred horizontally,
    starting half a key below the middle of the screen. */
module MuiOsk {
  import opened Common

  /** Keys per row. */
  const KEY_COLUMNS: nat := 11
  /** Number of keys. */
  const KEY_COUNT: nat := 44

  /** Key height: a tenth of the screen height. */
  function KeyHeight(height: nat): nat
  {
    height / 10
  }

  /** Key width: an eleventh of the screen width, but no wider than a key
      is tall. */
  function KeyWidth(width: nat, height: nat): (pw: nat)
    ensures pw <= width / KEY_COLUMNS && pw <= KeyHeight(height)
    ensures pw == width / KEY_COLUMNS || pw == KeyHeight(height)
  {
    var pw := width / KEY_COLUMNS;
    var ph := KeyHeight(height);
    if pw >= ph then ph else pw
  }

  /** `line_y`: the offset of key `i`'s row, `(i / 11) * height / 10.0`
      truncated to `int`. */
  function RowOffset(i: nat, height: nat): int
  {
    Trunc(((i / KEY_COLUMNS) * height) as real / 10.0)
  }

  /** `ptr_x`: the left edge of key `i`, computed in floating point and
      truncated to `int`. */
  function KeyLeft(i: nat, width: nat, height: nat): int
  {
    var pw := KeyWidth(width, height);
    Trunc(width as real / 2.0 - (KEY_COLUMNS * pw) as real / 2.0 + ((i % KEY_COLUMNS) * pw) as real)
  }

  /** `ptr_y`: the top edge of key `i`, computed in floating point and
      truncated to `int`. */
  function KeyTop(i: nat, width: nat, height: nat): int
  {
    var ph := KeyHeight(height);
    Trunc(height as real / 2.0 + ph as real * 1.5 + RowOffset(i, height) as real - ph as real)
  }

  /** Key `i`'s box contains the point strictly. */
  predicate KeyContains(i: nat, x: int, y: int, width: nat, height: nat)
  {
    && KeyLeft(i, width, height) < x < KeyLeft(i, width, height) + KeyWidth(width, height)
    && KeyTop(i, width, height) < y < KeyTop(i, width, height) + KeyHeight(height)
  }

  /** `mui_osk_ptr_at_pos`: the first key whose box strictly contains the
      point, or -1 when none does or the driver handle is missing. */
  method OskPtrAtPos(handlePresent: bool, x: int, y: int, width: nat, height: nat) returns (key: int)
    ensures -1 <= key < KEY_COUNT as int
    ensures !handlePresent ==> key == -1
    ensures key >= 0 ==> KeyContains(key as nat, x, y, width, height)
    ensures key >= 0 ==> forall j: nat :: j < key as nat ==> !KeyContains(j, x, y, width, height)
    ensures handlePresent && key == -1 ==> forall j: nat :: j < KEY_COUNT ==> !KeyContains(j, x, y, width, height)
  {
    if !handlePresent {
      return -1;
    }
    var i: nat := 0;
    while i < KEY_COUNT
      invariant i <= KEY_COUNT
      invariant forall j: nat :: j < i ==> !KeyContains(j, x, y, width, height)
    {
      if KeyContains(i, x, y, width, height) {
        return i;
      }
      i := i + 1;
    }
    return -1;
  }

  /** Truncating the quotient of two naturals is integer division. */
  lemma TruncOfQuotient(n: nat, d: nat)
    requires d > 0
    ensures Trunc(n as real / d as real) == n / d
  {
    var q := n / d;
    var r := n % d;
    assert n == q * d + r;
    assert n as real / d as real == q as real + r as real / d as real;
    assert 0.0 <= r as real / d as real < 1.0;
  }

  /** In integers: row `i / 11` starts `(i / 11) * height / 10` below the
      first row. */
  lemma RowOffsetIsIntegral(i: nat, height: nat)
    ensures RowOffset(i, height) == ((i / KEY_COLUMNS) * height) / 10
  {
    TruncOfQuotient((i / KEY_COLUMNS) * height, 10);
  }

  /** In integers: the keyboard is centred, and key `i` sits `i % 11` key
      widths right of its left edge. */
  lemma KeyLeftIsIntegral(i: nat, width: nat, height: nat)
    ensures var pw := KeyWidth(width, height);
            KeyLeft(i, width, height) == (width - KEY_COLUMNS * pw) / 2 + (i % KEY_COLUMNS) * pw
  {
    var pw := KeyWidth(width, height);
    var k := i % KEY_COLUMNS;
    var a := width - KEY_COLUMNS * pw;
    assert a >= 0;
    assert width as real / 2.0 - (KEY_COLUMNS * pw) as real / 2.0 + (k * pw) as real
           == (a + 2 * (k * pw)) as real / 2 as real;
    TruncOfQuotient(a + 2 * (k * pw), 2);
  }

  /** In integers: the first row starts half a key below the middle of the
      screen. */
  lemma KeyTopIsIntegral(i: nat, width: nat, height: nat)
    ensures var ph := KeyHeight(height);
            KeyTop(i, width, height) == (height + ph) / 2 + ((i / KEY_COLUMNS) * height) / 10
  {
    var ph := KeyHeight(height);
    RowOffsetIsIntegral(i, height);
    var line := ((i / KEY_COLUMNS) * height) / 10;
    assert height as real / 2.0 + ph as real * 1.5 + line as real - ph as real
           == (height + ph + 2 * line) as real / 2 as real;
    TruncOfQuotient(height + ph + 2 * line, 2);
  }

  /** Later rows start at least one key height further down. */
  lemma RowGap(a: nat, b: nat, height: nat)
    requires a < b
    ensures (b * height) / 10 >= (a * height) / 10 + height / 10
  {
    MulMonotonic(a + 1, b, height);
    var p := a * height;
    assert p / 10 * 10 + height / 10 * 10 <= p + height;
    assert (p / 10 + height / 10) * 10 <= b * height;
  }

  /** No two keys overlap, so the first key containing a point is the only
      one. */
  lemma KeysDisjoint(i: nat, j: nat, x: int, y: int, width: nat, height: nat)
    requires i < j < KEY_COUNT
    ensures !(KeyContains(i, x, y, width, height) && KeyContains(j, x, y, width, height))
  {
    var pw := KeyWidth(width, height);
    KeyLeftIsIntegral(i, width, height);
    KeyLeftIsIntegral(j, width, height);
    KeyTopIsIntegral(i, width, height);
    KeyTopIsIntegral(j, width, height);
    if i / KEY_COLUMNS == j / KEY_COLUMNS {
      assert i % KEY_COLUMNS < j % KEY_COLUMNS;
      MulMonotonic(i % KEY_COLUMNS + 1, j % KEY_COLUMNS, pw);
    } else {
      RowGap(i / KEY_COLUMNS, j / KEY_COLUMNS, height);
    }
  }
}

=== FILE: scroll.dfy ===
/** Scrolling in the Material UI driver: the per-frame clamp of the scroll
    offset in `mui_render`, the scroll-to-selection target of
    `mui_get_scroll`, and the callbacks that consume it. */
module MuiScroll {
  import opened Common
  import opened MuiLayout
  import opened MuiHandle
  import opened MuiHitTest

  /** Conversion of a float to `unsigned`. C leaves out-of-range values
      undefined; the model saturates, as the ARM conversion instruction
      does. */
  function FloatToU32(x: real): (r: nat)
    ensures r <= U32_MAX
    ensures 0.0 <= x < U32_MODULUS as real ==> r as real <= x < r as real + 1.0
    ensures x < 0.0 ==> r == 0
  {
    if x < 0.0 then 0 else if x >= U32_MAX as real then U32_MAX else x.Floor
  }

  /** The real-valued lower edge of the scroll range: content height minus
      the part of the screen left for the list. */
  function Overflow(content: real, s: Screen, tabsHeight: nat): real
  {
    content - s.height as real + s.header as real + tabsHeight as real
  }

  /** `bottom` in `mui_render`: the overflow converted to `unsigned`. */
  function Bottom(content: real, s: Screen, tabsHeight: nat): nat
  {
    FloatToU32(Overflow(content, s, tabsHeight))
  }

  /** `height - header_height - tabs_height` in unsigned arithmetic: the
      height left for the list, wrapping when the chrome is taller than
      the screen. */
  function ListRoom(s: Screen, tabsHeight: nat): nat
    requires s.Valid() && tabsHeight < U32_MODULUS
  {
    U32Sub(U32Sub(s.height, s.header), tabsHeight)
  }

  /** The content fits on screen, so scrolling is switched off. */
  predicate Fits(content: real, s: Screen, tabsHeight: nat)
    requires s.Valid() && tabsHeight < U32_MODULUS
  {
    content < ListRoom(s, tabsHeight) as real
  }

  /** The three ordered steps of `mui_render`: raise a negative offset to
      0, lower an offset past `bottom` to `bottom`, and force 0 when the
      content fits. */
  function ClampScroll(scrollY: real, content: real, s: Screen, tabsHeight: nat): (r: real)
    requires s.Valid() && tabsHeight < U32_MODULUS
    ensures r >= 0.0
    ensures Fits(content, s, tabsHeight) ==> r == 0.0
    ensures !Fits(content, s, tabsHeight) ==> r <= Bottom(content, s, tabsHeight) as real
    ensures r == 0.0 || r <= Overflow(content, s, tabsHeight)
    ensures r <= scrollY || r == 0.0
    ensures !Fits(content, s, tabsHeight) && 0.0 <= scrollY <= Bottom(content, s, tabsHeight) as real
            ==> r == scrollY
    ensures !Fits(content, s, tabsHeight) && scrollY > Bottom(content, s, tabsHeight) as real
            ==> r == Bottom(content, s, tabsHeight) as real
  {
    var raised := if scrollY < 0.0 then 0.0 else scrollY;
    var bottom := Bottom(content, s, tabsHeight) as real;
    var lowered := if raised > bottom then bottom else raised;
    if Fits(content, s, tabsHeight) then 0.0 else lowered
  }

  /** Clamping an already clamped offset changes nothing. */
  lemma ClampIsIdempotent(scrollY: real, content: real, s: Screen, tabsHeight: nat)
    requires s.Valid() && tabsHeight < U32_MODULUS
    ensures var once := ClampScroll(scrollY, content, s, tabsHeight);
            ClampScroll(once, content, s, tabsHeight) == once
  {
  }

  /** With the chrome shorter than the screen, the offset ends in
      [0, max(0, overflow)] and is 0 exactly when the content fits, the
      offset was not positive, or the overflow is below one pixel. */
  lemma ClampRange(scrollY: real, content: real, s: Screen, tabsHeight: nat)
    requires s.Valid() && tabsHeight < U32_MODULUS
    requires s.header + tabsHeight <= s.height
    requires Overflow(content, s, tabsHeight) < U32_MODULUS as real
    ensures var r := ClampScroll(scrollY, content, s, tabsHeight);
            r == 0.0 <==> (content < (s.height - s.header - tabsHeight) as real
                           || scrollY <= 0.0
                           || Overflow(content, s, tabsHeight) < 1.0)
  {
    var r := ClampScroll(scrollY, content, s, tabsHeight);
    assert ListRoom(s, tabsHeight) == s.height - s.header - tabsHeight;
    if Overflow(content, s, tabsHeight) >= 1.0 {
      assert Bottom(content, s, tabsHeight) >= 1;
    }
  }

  /** When the header and tab bar together are taller than the screen, the
      unsigned subtraction wraps and the list never scrolls for any
      content shorter than about 4 billion pixels. */
  lemma ShortScreenPinsScroll(scrollY: real, content: real, s: Screen, tabsHeight: nat)
    requires s.Valid() && tabsHeight < U32_MODULUS
    requires s.height < s.header + tabsHeight < U32_MODULUS
    requires content < (U32_MODULUS + s.height - s.header - tabsHeight) as real
    ensures ClampScroll(scrollY, content, s, tabsHeight) == 0.0
  {
    if s.header <= s.height {
      assert U32Sub(s.height, s.header) == s.height - s.header;
    } else {
      assert U32Sub(s.height, s.header) == U32_MODULUS + s.height - s.header;
    }
    assert ListRoom(s, tabsHeight) == U32_MODULUS + s.height - s.header - tabsHeight;
  }

  /** Pointer input read by `mui_render`: its row and the drag acceleration
      to apply this frame. */
  datatype PointerInput = PointerInput(y: int, accel: real)

  /** What one frame of `mui_render` decides: the clamped scroll offset,
      the entries the pointer and the mouse were found over (None: the
      stored index is left alone), and the start index it stores last. */
  datatype Frame = Frame(scrollY: real, pointerPtr: Option<nat>, mousePtr: Option<nat>, start: nat)

  /** The offset once the pointer's acceleration has been taken off it;
      without pointer input the offset is left alone. */
  function AfterAccel(scrollY: real, pointer: Option<PointerInput>): real
  {
    if pointer.Some? then scrollY - pointer.value.accel else scrollY
  }

  /** The scroll and hit-test part of `mui_render` over an already laid-out
      list: the pointer is tested against the old offset, the acceleration
      is subtracted, the mouse is tested against the new offset, the result
      is clamped, and the menu start is reset to 0. */
  function RenderFrame(h: Handle, nodes: seq<Node>, s: Screen,
                       pointer: Option<PointerInput>, mouse: Option<int>): (f: Frame)
    requires s.Valid() && h.tabsHeight < U32_MODULUS
    ensures f.scrollY == ClampScroll(AfterAccel(h.scrollY, pointer), ContentHeight(nodes), s, h.tabsHeight)
    ensures f.scrollY >= 0.0
    ensures Fits(ContentHeight(nodes), s, h.tabsHeight) ==> f.scrollY == 0.0
    ensures pointer.None? ==> f.pointerPtr.None?
    ensures pointer.Some? ==>
            (f.pointerPtr.None? <==> forall j :: 0 <= j < |nodes| ==> !Hits(nodes[j], h.scrollY, s.header, pointer.value.y as real))
    ensures f.pointerPtr.Some? ==>
            (pointer.Some? && f.pointerPtr.value < |nodes|
             && Hits(nodes[f.pointerPtr.value], h.scrollY, s.header, pointer.value.y as real)
             && forall j :: f.pointerPtr.value < j < |nodes| ==> !Hits(nodes[j], h.scrollY, s.header, pointer.value.y as real))
    ensures mouse.None? ==> f.mousePtr.None?
    ensures mouse.Some? ==>
            (f.mousePtr.None? <==> forall j :: 0 <= j < |nodes| ==>
               !Hits(nodes[j], AfterAccel(h.scrollY, pointer), s.header, mouse.value as real))
    ensures f.mousePtr.Some? ==>
            (mouse.Some? && f.mousePtr.value < |nodes|
             && Hits(nodes[f.mousePtr.value], AfterAccel(h.scrollY, pointer), s.header, mouse.value as real)
             && forall j :: f.mousePtr.value < j < |nodes| ==>
                  !Hits(nodes[j], AfterAccel(h.scrollY, pointer), s.header, mouse.value as real))
    ensures f.start == 0
  {
    var pointerPtr := if pointer.Some? then LastHit(nodes, h.scrollY, s.header, pointer.value.y as real) else None;
    var scrolled := AfterAccel(h.scrollY, pointer);
    var mousePtr := if mouse.Some? then LastHit(nodes, scrolled, s.header, mouse.value as real) else None;
    Frame(ClampScroll(scrolled, ContentHeight(nodes), s, h.tabsHeight), pointerPtr, mousePtr, 0)
  }

  /** On a contiguous list a frame reports exactly the entry under the
      pointer (at the old offset) and under the mouse (at the offset after
      acceleration), and a second clamp of its offset changes nothing. */
  lemma RenderFrameFindsEntries(h: Handle, nodes: seq<Node>, s: Screen,
                                pointer: Option<PointerInput>, mouse: Option<int>, p: nat, m: nat)
    requires s.Valid() && h.tabsHeight < U32_MODULUS
    requires Contiguous(nodes) && NonNegativeHeights(nodes)
    ensures var f := RenderFrame(h, nodes, s, pointer, mouse);
            ClampScroll(f.scrollY, ContentHeight(nodes), s, h.tabsHeight) == f.scrollY
    ensures pointer.Some? && p < |nodes| && Hits(nodes[p], h.scrollY, s.header, pointer.value.y as real)
            ==> RenderFrame(h, nodes, s, pointer, mouse).pointerPtr == Some(p)
    ensures mouse.Some? && m < |nodes| && Hits(nodes[m], AfterAccel(h.scrollY, pointer), s.header, mouse.value as real)
            ==> RenderFrame(h, nodes, s, pointer, mouse).mousePtr == Some(m)
  {
    var f := RenderFrame(h, nodes, s, pointer, mouse);
    ClampIsIdempotent(AfterAccel(h.scrollY, pointer), ContentHeight(nodes), s, h.tabsHeight);
    if pointer.Some? && p < |nodes| && Hits(nodes[p], h.scrollY, s.header, pointer.value.y as real) {
      LastHitFindsTheEntry(nodes, h.scrollY, s.header, pointer.value.y as real, p);
    }
    if mouse.Some? && m < |nodes| && Hits(nodes[m], AfterAccel(h.scrollY, pointer), s.header, mouse.value as real) {
      LastHitFindsTheEntry(nodes, AfterAccel(h.scrollY, pointer), s.header, mouse.value as real, m);
    }
  }

  /** `half` in `mui_get_scroll`: a third of the rows that fit on screen,
      or 0 when the row height is 0. */
  function Half(height: nat, lineHeight: nat): nat
  {
    if lineHeight == 0 then 0 else (height / lineHeight) / 3
  }

  /** `mui_get_scroll`: no scroll while the selection is in the first
      `half` rows; beyond that the offset keeps the selection about a third
      down the screen. */
  function GetScroll(selection: nat, height: nat, lineHeight: nat): (r: nat)
    ensures r == 0 <==> (lineHeight == 0 || selection < Half(height, lineHeight))
    ensures selection >= Half(height, lineHeight) ==> r == (selection + 2 - Half(height, lineHeight)) * lineHeight
  {
    var half := Half(height, lineHeight);
    if selection < half then 0
    else
      assert lineHeight > 0 ==> (selection + 2 - half) * lineHeight >= lineHeight;
      (selection + 2 - half) * lineHeight
  }

  /** Moving the selection down never scrolls the list up. */
  lemma {:induction false} GetScrollMonotonic(a: nat, b: nat, height: nat, lineHeight: nat)
    requires a <= b
    ensures GetScroll(a, height, lineHeight) <= GetScroll(b, height, lineHeight)
  {
    var half := Half(height, lineHeight);
    if a >= half {
      assert (a + 2 - half) * lineHeight <= (b + 2 - half) * lineHeight by {
        MulMonotonic(a + 2 - half, b + 2 - half, lineHeight);
      }
    }
  }

  /** Past the threshold every step of the selection scrolls by exactly one
      row; at the threshold the offset jumps from 0 to two rows. */
  lemma GetScrollSteps(selection: nat, height: nat, lineHeight: nat)
    ensures selection >= Half(height, lineHeight)
            ==> GetScroll(selection + 1, height, lineHeight) == GetScroll(selection, height, lineHeight) + lineHeight
    ensures selection + 1 == Half(height, lineHeight)
            ==> GetScroll(selection + 1, height, lineHeight) == 2 * lineHeight
  {
  }

  /** A tween registered with the animation engine. */
  datatype Easing = EasingInOutQuad
  datatype Tween = Tween(target: real, duration: nat, easing: Easing, tag: int)

  /** `mui_navigation_set`: when asked to scroll, registers a tween of the
      scroll offset (the only subject it animates) towards the
      scroll-to-selection target; otherwise registers nothing. */
  function NavigationSet(h: Handle, scroll: bool, selection: nat, height: nat): (t: Option<Tween>)
    ensures t.Some? <==> scroll
    ensures t.Some? ==> t.value.target == GetScroll(selection, height, h.lineHeight) as real
    ensures t.Some? ==> t.value.duration == 10 && t.value.tag == -1
  {
    if !scroll then None
    else Some(Tween(GetScroll(selection, height, h.lineHeight) as real, 10, EasingInOutQuad, -1))
  }

  /** `mui_navigation_clear`: scrolls back to the top; nothing else in the
      handle changes. The list start index is reset to 0 as well. */
  function NavigationClear(h: Handle): (r: (Handle, nat))
    ensures r.0.scrollY == 0.0 && r.1 == 0
    ensures r.0.(scrollY := h.scrollY) == h
  {
    (h.(scrollY := 0.0), 0)
  }

  /** `mui_populate_entries`: jumps straight to the scroll-to-selection
      offset for the new list; nothing else in the handle changes. */
  function PopulateEntries(h: Handle, selection: nat, height: nat): (r: Handle)
    ensures r.scrollY == GetScroll(selection, height, h.lineHeight) as real
    ensures r.scrollY >= 0.0
    ensures r.(scrollY := h.scrollY) == h
  {
    h.(scrollY := GetScroll(selection, height, h.lineHeight) as real)
  }

  /** Populating jumps to the same offset that navigation animates to. */
  lemma PopulateMatchesNavigation(h: Handle, selection: nat, height: nat)
    ensures NavigationSet(h, true, selection, height).value.target
            == PopulateEntries(h, selection, height).scrollY
  {
  }
}

=== FILE: tables.dfy ===
/** Small tables of the Material UI driver: the file name of every icon
    texture (`mui_texture_path`), the clamp of the value column's width
    (`mui_render_label_value`) and the initial state of a new entry's
    layout node (`mui_list_insert`). */
module MuiTables {
  import opened Common
  import opened MuiLayout

  /** `MUI_TEXTURE_UPDATE`: declared, but given no file name. */
  const TEXTURE_UPDATE: nat := 17
  /** `MUI_TEXTURE_LAST`: the number of texture ids. */
  const TEXTURE_LAST: nat := 51

  /** Texture ids the entry icons use. */
  const TEXTURE_FOLDER: nat := 9
  const TEXTURE_PARENT_DIRECTORY: nat := 10
  const TEXTURE_VIDEO: nat := 13
  const TEXTURE_MUSIC: nat := 14
  const TEXTURE_SETTINGS: nat := 21
  const TEXTURE_FILE: nat := 22
  const TEXTURE_PLAYLIST: nat := 23
  const TEXTURE_DATABASE: nat := 38

  /** `mui_texture_path`: the file name of texture `id`, None (NULL) for
      `MUI_TEXTURE_UPDATE` and for ids past the end of the enumeration. */
  function TexturePath(id: nat): (r: Option<string>)
    ensures r.None? <==> id == TEXTURE_UPDATE || id >= TEXTURE_LAST
  {
    match id
    case 0 => Some("pointer.png")  // TEXTURE_POINTER
    case 1 => Some("back.png")  // TEXTURE_BACK
    case 2 => Some("on.png")  // TEXTURE_SWITCH_ON
    case 3 => Some("off.png")  // TEXTURE_SWITCH_OFF
    case 4 => Some("main_tab_passive.png")  // TEXTURE_TAB_MAIN
    case 5 => Some("playlists_tab_passive.png")  // TEXTURE_TAB_PLAYLISTS
    case 6 => Some("settings_tab_passive.png")  // TEXTURE_TAB_SETTINGS
    case 7 => Some("key.png")  // TEXTURE_KEY
    case 8 => Some("key-hover.png")  // TEXTURE_KEY_HOVER
    case 9 => Some("folder.png")  // TEXTURE_FOLDER
    case 10 => Some("parent_directory.png")  // TEXTURE_PARENT_DIRECTORY
    case 11 => Some("image.png")  // TEXTURE_IMAGE
    case 12 => Some("archive.png")  // TEXTURE_ARCHIVE
    case 13 => Some("video.png")  // TEXTURE_VIDEO
    case 14 => Some("music.png")  // TEXTURE_MUSIC
    case 15 => Some("quit.png")  // TEXTURE_QUIT
    case 16 => Some("help.png")  // TEXTURE_HELP
    case 18 => Some("history.png")  // TEXTURE_HISTORY
    case 19 => Some("information.png")  // TEXTURE_INFO
    case 20 => Some("add.png")  // TEXTURE_ADD
    case 21 => Some("settings.png")  // TEXTURE_SETTINGS
    case 22 => Some("file.png")  // TEXTURE_FILE
    case 23 => Some("playlist.png")  // TEXTURE_PLAYLIST
    case 24 => Some("update.png")  // TEXTURE_UPDATER
    case 25 => Some("quickmenu.png")  // TEXTURE_QUICKMENU
    case 26 => Some("netplay.png")  // TEXTURE_NETPLAY
    case 27 => Some("cores.png")  // TEXTURE_CORES
    case 28 => Some("shaders.png")  // TEXTURE_SHADERS
    case 29 => Some("controls.png")  // TEXTURE_CONTROLS
    case 30 => Some("close.png")  // TEXTURE_CLOSE
    case 31 => Some("core_options.png")  // TEXTURE_CORE_OPTIONS
    case 32 => Some("core_cheat_options.png")  // TEXTURE_CORE_CHEAT_OPTIONS
    case 33 => Some("resume.png")  // TEXTURE_RESUME
    case 34 => Some("restart.png")  // TEXTURE_RESTART
    case 35 => Some("add_to_favorites.png")  // TEXTURE_ADD_TO_FAVORITES
    case 36 => Some("run.png")  // TEXTURE_RUN
    case 37 => Some("rename.png")  // TEXTURE_RENAME
    case 38 => Some("database.png")  // TEXTURE_DATABASE
    case 39 => Some("add_to_mixer.png")  // TEXTURE_ADD_TO_MIXER
    case 40 => Some("scan.png")  // TEXTURE_SCAN
    case 41 => Some("remove.png")  // TEXTURE_REMOVE
    case 42 => Some("start_core.png")  // TEXTURE_START_CORE
    case 43 => Some("load_state.png")  // TEXTURE_LOAD_STATE
    case 44 => Some("save_state.png")  // TEXTURE_SAVE_STATE
    case 45 => Some("undo_load_state.png")  // TEXTURE_UNDO_LOAD_STATE
    case 46 => Some("undo_save_state.png")  // TEXTURE_UNDO_SAVE_STATE
    case 47 => Some("state_slot.png")  // TEXTURE_STATE_SLOT
    case 48 => Some("take_screenshot.png")  // TEXTURE_TAKE_SCREENSHOT
    case 49 => Some("configurations.png")  // TEXTURE_CONFIGURATIONS
    case 50 => Some("load_content.png")  // TEXTURE_LOAD_CONTENT
    case _ => None
  }

  /** The value column of an entry: its width in glyphs after the clamp,
      and the width left for the label (`ticker_limit`). */
  datatype Columns = Columns(valueLen: nat, tickerLimit: int)

  /** The clamp at the start of `mui_render_label_value`: a value wider
      than half the usable width is cut to the glyphs that fit in that
      half; the label gets the remaining glyphs minus two. */
  function ValueColumns(valueLen: nat, glyphWidth: nat, usableWidth: nat): (c: Columns)
    requires glyphWidth > 0
    ensures c.valueLen <= valueLen
    ensures valueLen * glyphWidth <= usableWidth / 2 ==> c.valueLen == valueLen
    ensures c.valueLen < valueLen ==> c.valueLen * glyphWidth <= usableWidth / 2 < (c.valueLen + 1) * glyphWidth
    ensures valueLen * glyphWidth > usableWidth / 2
            ==> c.valueLen * glyphWidth <= usableWidth / 2 < (c.valueLen + 1) * glyphWidth
    ensures (c.valueLen + 2 + c.tickerLimit) * glyphWidth <= usableWidth
    ensures (c.valueLen + 3 + c.tickerLimit) * glyphWidth > usableWidth
  {
    var len := if valueLen * glyphWidth > usableWidth / 2 then (usableWidth / 2) / glyphWidth else valueLen;
    assert len <= valueLen by {
      if len != valueLen {
        DivBelow(usableWidth / 2, glyphWidth, valueLen);
      }
    }
    Columns(len, usableWidth / glyphWidth - (len + 2))
  }

  /** The clamped value column is the widest one that fits: no shorter
      value is ever chosen when a longer one fits in half the row, and the
      label gets every glyph left over. */
  lemma {:induction false} ValueColumnIsWidest(valueLen: nat, glyphWidth: nat, usableWidth: nat, n: nat, t: int)
    requires glyphWidth > 0
    ensures var c := ValueColumns(valueLen, glyphWidth, usableWidth);
            n <= valueLen && n * glyphWidth <= usableWidth / 2 ==> n <= c.valueLen
    ensures var c := ValueColumns(valueLen, glyphWidth, usableWidth);
            c.valueLen + 2 + t >= 0 && (c.valueLen + 2 + t) * glyphWidth <= usableWidth ==> t <= c.tickerLimit
  {
    var c := ValueColumns(valueLen, glyphWidth, usableWidth);
    if n <= valueLen && n * glyphWidth <= usableWidth / 2 && n > c.valueLen {
      MulMonotonic(c.valueLen + 1, n, glyphWidth);
      assert false;
    }
    if c.valueLen + 2 + t >= 0 && (c.valueLen + 2 + t) * glyphWidth <= usableWidth && t > c.tickerLimit {
      MulMonotonic(c.valueLen + 3 + c.tickerLimit, c.valueLen + 2 + t, glyphWidth);
      assert false;
    }
  }

  /** A quotient below `n` when `n` glyphs do not fit. */
  lemma DivBelow(space: nat, glyph: nat, n: nat)
    requires glyph > 0 && n * glyph > space
    ensures space / glyph < n
  {
    if space / glyph >= n {
      MulMonotonic(n, space / glyph, glyph);
      assert false;
    }
  }

  /** The file types `mui_list_insert` gives an icon by type alone; any
      other type is looked up by label. */
  datatype FileType =
    | ParentDirectory | PlaylistCollection | Rdb | RdbEntry | Type32
    | InCArchive | Plain | Music | Movie | Directory | OtherType(code: nat)

  /** The icon texture of a file type, None for the types looked up by label. */
  function TypeIcon(t: FileType): (id: Option<nat>)
    ensures id.Some? ==> TexturePath(id.value).Some?
    ensures id.None? <==> t.OtherType?
  {
    match t
    case ParentDirectory => Some(TEXTURE_PARENT_DIRECTORY)
    case PlaylistCollection => Some(TEXTURE_PLAYLIST)
    case Rdb => Some(TEXTURE_DATABASE)
    case RdbEntry | Type32 => Some(TEXTURE_SETTINGS)
    case InCArchive | Plain => Some(TEXTURE_FILE)
    case Music => Some(TEXTURE_MUSIC)
    case Movie => Some(TEXTURE_VIDEO)
    case Directory => Some(TEXTURE_FOLDER)
    case OtherType(_) => None
  }

  /** `mui_list_insert`: a new entry's node, reused or freshly allocated,
      starts one base row high at position 0 with every switch cleared;
      its icon comes from its file type, or from `labelIcon`, the id the
      label lookup chose. `textures` holds the loaded texture handles. */
  function InsertNode(existing: Option<Node>, scaleFactor: real, t: FileType,
                      labelIcon: Option<nat>, textures: seq<nat>): (n: Node)
    requires |textures| == TEXTURE_LAST
    requires labelIcon.Some? ==> labelIcon.value < TEXTURE_LAST
    ensures n.lineHeight == scaleFactor / 3.0 && n.y == 0.0
    ensures !n.textureSwitchSet && n.textureSwitch == 0 && !n.switchIsOn && !n.doDrawText
    ensures n.textureSwitch2Set <==> (!t.OtherType? || labelIcon.Some?)
    ensures !t.OtherType? ==> n.textureSwitch2 == textures[TypeIcon(t).value]
    ensures t.OtherType? && labelIcon.Some? ==> n.textureSwitch2 == textures[labelIcon.value]
    ensures !n.textureSwitch2Set ==> n.textureSwitch2 == 0
  {
    var blank := Node(scaleFactor / 3.0, 0.0, false, 0, false, 0, false, false);
    var icon := match TypeIcon(t) case Some(id) => Some(id) case None => labelIcon;
    match icon
    case None => blank
    case Some(id) => blank.(textureSwitch2Set := true, textureSwitch2 := textures[id])
  }

  /** A newly inserted entry is as high as an entry without a sublabel
      until the next layout pass, and whatever node is reused, nothing of
      it survives. */
  lemma InsertedNodeIsBaseRow(existing: Option<Node>, t: FileType, labelIcon: Option<nat>,
                              textures: seq<nat>, e: Entry, m: Metrics, wrap: (string, int) -> string)
    requires |textures| == TEXTURE_LAST
    requires labelIcon.Some? ==> labelIcon.value < TEXTURE_LAST
    requires m.glyphWidth2 > 0 && 2 * m.margin < U32_MODULUS
    requires e.sublabel.None?
    ensures InsertNode(existing, m.scaleFactor, t, labelIcon, textures).lineHeight == EntryHeight(e, m, wrap)
    ensures InsertNode(existing, m.scaleFactor, t, labelIcon, textures)
            == InsertNode(None, m.scaleFactor, t, labelIcon, textures)
  {
  }
}

=== FILE: tabs.dfy ===
/** Tab navigation and pointer handling of the Material UI driver: the
    keyboard tab cycling of `mui_list_cache`, the menu-stack relabelling of
    `mui_preswitch_tabs`, and the sorting of a press or release into the
    header, the tab bar or the list (`mui_pointer_down`, `mui_pointer_up`). */
module MuiTabs {
  import opened Common
  import opened MuiLayout
  import opened MuiHandle
  import opened MuiHitTest

  /** The kind of list `mui_list_cache` is told about. */
  datatype ListType = ListPlain | ListHorizontal | ListOther

  /** A menu action: only LEFT is told apart; every other action moves right. */
  datatype Action = ActionLeft | ActionRight | ActionOther(code: nat)

  /** Labels `mui_preswitch_tabs` gives the top of the menu stack. */
  datatype TabLabel = LabelMainMenu | LabelPlaylistsTab | LabelSettingsTab

  /** Menu types the top of the stack can carry. */
  datatype MenuType = MenuSettings | MenuPlaylistsTab | MenuOther(code: nat)

  /** The top entry of the menu stack: its label (None: freed, NULL) and type. */
  datatype StackTop = StackTop(name: Option<TabLabel>, kind: MenuType)

  /** `mui_preswitch_tabs`: frees the label of the stack top and gives it
      the label and type of the selected tab. */
  function PreswitchTabs(c: Categories, top: StackTop): (r: StackTop)
    ensures c.selectionPtr <= TAB_END ==> r.name.Some?
    ensures c.selectionPtr == TAB_MAIN ==> r.name == Some(LabelMainMenu)
    ensures c.selectionPtr == TAB_PLAYLISTS ==> r.name == Some(LabelPlaylistsTab)
    ensures c.selectionPtr == TAB_SETTINGS ==> r.name == Some(LabelSettingsTab)
    ensures c.selectionPtr <= TAB_END ==> (r.kind == MenuPlaylistsTab <==> c.selectionPtr == TAB_PLAYLISTS)
    ensures c.selectionPtr <= TAB_END ==> (r.kind == MenuSettings <==> c.selectionPtr != TAB_PLAYLISTS)
    ensures c.selectionPtr > TAB_END ==> r == StackTop(None, top.kind)
  {
    if c.selectionPtr == TAB_MAIN then StackTop(Some(LabelMainMenu), MenuSettings)
    else if c.selectionPtr == TAB_PLAYLISTS then StackTop(Some(LabelPlaylistsTab), MenuPlaylistsTab)
    else if c.selectionPtr == TAB_SETTINGS then StackTop(Some(LabelSettingsTab), MenuSettings)
    else StackTop(None, top.kind)
  }

  /** Each tab gets its own label. */
  lemma PreswitchLabelsDistinct(c: Categories, d: Categories, top: StackTop)
    requires c.selectionPtr <= TAB_END && d.selectionPtr <= TAB_END
    requires PreswitchTabs(c, top).name == PreswitchTabs(d, top).name
    ensures c.selectionPtr == d.selectionPtr
  {
  }

  /** `mui_list_cache`: on a horizontal list, remembers the current tab and
      moves one tab left (LEFT) or right (anything else), wrapping at both
      ends; wrapping also sets the active index to 1. Then relabels the
      stack top. Other list types change nothing. */
  function ListCache(c: Categories, top: StackTop, t: ListType, a: Action): (r: (Categories, StackTop))
    ensures t != ListHorizontal ==> r == (c, top)
    ensures t == ListHorizontal ==> r.0.selectionPtrOld == c.selectionPtr
    ensures t == ListHorizontal ==> r.0.activeIdxOld == c.activeIdxOld
    ensures t == ListHorizontal ==> r.1 == PreswitchTabs(r.0, top)
    ensures t == ListHorizontal && c.selectionPtr <= TAB_END ==> r.0.selectionPtr <= TAB_END
    ensures t == ListHorizontal && c.selectionPtr <= TAB_END && a == ActionLeft
            ==> r.0.selectionPtr == (c.selectionPtr + TAB_END) % (TAB_END + 1)
    ensures t == ListHorizontal && c.selectionPtr <= TAB_END && a != ActionLeft
            ==> r.0.selectionPtr == (c.selectionPtr + 1) % (TAB_END + 1)
    ensures t == ListHorizontal && (a == ActionLeft ==> c.selectionPtr != 0)
            && (a != ActionLeft ==> c.selectionPtr != TAB_END)
            ==> r.0.activeIdx == c.activeIdx
    ensures t == ListHorizontal && (a == ActionLeft ==> c.selectionPtr == 0)
            && (a != ActionLeft ==> c.selectionPtr == TAB_END)
            ==> r.0.activeIdx == 1
  {
    if t != ListHorizontal then (c, top)
    else
      var remembered := c.(selectionPtrOld := c.selectionPtr);
      var moved :=
        if a == ActionLeft then
          if c.selectionPtr == 0 then remembered.(selectionPtr := TAB_END, activeIdx := TAB_END - 1)
          else remembered.(selectionPtr := c.selectionPtr - 1)
        else
          if c.selectionPtr == TAB_END then remembered.(selectionPtr := 0, activeIdx := 1)
          else remembered.(selectionPtr := c.selectionPtr + 1);
      (moved, PreswitchTabs(moved, top))
  }

  /** LEFT followed by RIGHT comes back to the starting tab. */
  lemma LeftThenRightRestores(c: Categories, top: StackTop)
    requires c.selectionPtr <= TAB_END
    ensures var (l, ltop) := ListCache(c, top, ListHorizontal, ActionLeft);
            var (r, rtop) := ListCache(l, ltop, ListHorizontal, ActionRight);
            r.selectionPtr == c.selectionPtr && r.selectionPtrOld == l.selectionPtr
  {
  }

  /** RIGHT followed by LEFT comes back to the starting tab. */
  lemma RightThenLeftRestores(c: Categories, top: StackTop)
    requires c.selectionPtr <= TAB_END
    ensures var (r, rtop) := ListCache(c, top, ListHorizontal, ActionRight);
            var (l, ltop) := ListCache(r, rtop, ListHorizontal, ActionLeft);
            l.selectionPtr == c.selectionPtr
  {
  }

  /** Three moves in the same direction visit every tab and come back. */
  lemma ThreeStepsCycle(c: Categories, top: StackTop, a: Action)
    requires c.selectionPtr <= TAB_END
    ensures var (c1, t1) := ListCache(c, top, ListHorizontal, a);
            var (c2, t2) := ListCache(c1, t1, ListHorizontal, a);
            var (c3, t3) := ListCache(c2, t2, ListHorizontal, a);
            c3.selectionPtr == c.selectionPtr
            && {c1.selectionPtr, c2.selectionPtr, c3.selectionPtr} == {TAB_MAIN, TAB_PLAYLISTS, TAB_SETTINGS}
  {
  }

  /** The loop over the tab columns in `mui_pointer_up`, from column `i`
      on: the screen width is split into three columns of `width / 3`
      pixels, and the first column holding `x` is reported. */
  function TabScan(x: nat, width: nat, i: nat): (r: Option<nat>)
    requires i <= TAB_END + 1
    ensures r.Some? ==> i <= r.value <= TAB_END
    ensures r.Some? ==> r.value * (width / 3) <= x < (r.value + 1) * (width / 3)
    ensures r.None? ==> forall k :: i <= k <= TAB_END ==> !(k * (width / 3) <= x < (k + 1) * (width / 3))
    decreases TAB_END + 1 - i
  {
    var tabWidth := width / (TAB_END + 1);
    var start := tabWidth * i;
    if i > TAB_END then None
    else if start <= x < start + tabWidth then Some(i)
    else TabScan(x, width, i + 1)
  }

  /** A tab is hit exactly when `x` lies left of the three columns, and
      then it is column `x / tab_width`. */
  lemma TabAtColumn(x: nat, width: nat)
    ensures TabScan(x, width, 0).Some? <==> x < 3 * (width / 3)
    ensures TabScan(x, width, 0).Some? ==> TabScan(x, width, 0).value == x / (width / 3)
  {
    var tw := width / 3;
    var r := TabScan(x, width, 0);
    if x < 3 * tw {
      ColumnOfDiv(x, tw);
      assert r.Some?;
    }
    if r.Some? {
      ColumnEndsBeforeThree(x, tw, r.value);
      DivIsColumn(x, tw, r.value);
    }
  }

  /** Below three columns, `x / w` names a column that holds `x`. */
  lemma ColumnOfDiv(x: nat, w: nat)
    requires x < 3 * w
    ensures w > 0 && x / w <= TAB_END && (x / w) * w <= x < (x / w + 1) * w
  {
  }

  /** A column among the first three ends within three columns. */
  lemma ColumnEndsBeforeThree(x: nat, w: nat, k: nat)
    requires k <= TAB_END && x < (k + 1) * w
    ensures x < 3 * w
  {
    assert (k + 1) * w <= 3 * w;
  }

  /** The column holding `x` is `x / w`. */
  lemma DivIsColumn(x: nat, w: nat, k: nat)
    requires k * w <= x < (k + 1) * w
    ensures w > 0 && x / w == k
  {
    assert w > 0;
    var q := x / w;
    assert q * w <= x < (q + 1) * w;
    if q < k {
      MulMonotonic(q + 1, k, w);
      assert false;
    } else if k < q {
      MulMonotonic(k + 1, q, w);
      assert false;
    }
  }

  /** What a pointer release does to the menu. */
  datatype Dispatch = NoAction | Cancel(entry: nat) | ListSwitch | Select(entry: nat)

  /** Which callbacks the entry offers (`cbs` may be NULL: both false). */
  datatype Callbacks = Callbacks(hasSelect: bool, hasListSwitch: bool)

  /** The header band: above the header's lower edge. */
  predicate InHeader(y: nat, s: Screen)
  {
    y < s.header
  }

  /** The tab band: below `height - tabs_height`, computed in unsigned
      arithmetic. */
  predicate InTabBar(y: nat, s: Screen, h: Handle)
    requires s.Valid() && h.tabsHeight < U32_MODULUS
  {
    y > U32Sub(s.height, h.tabsHeight)
  }

  /** The list band: the release is neither in the header nor the tab bar,
      and `ptr <= entries_end - 1` in `size_t` arithmetic, which always
      holds for an empty list. */
  predicate InList(y: nat, ptr: nat, n: nat, s: Screen, h: Handle)
    requires s.Valid() && h.tabsHeight < U32_MODULUS
  {
    !InHeader(y, s) && !InTabBar(y, s, h) && (n == 0 || ptr <= n - 1)
  }

  /** The loop over the entries in `mui_pointer_up`, from entry `i` on: the
      first entry under the row that is also the pressed entry `ptr` is
      selected, provided the entry has a select callback. */
  function SelectScan(nodes: seq<Node>, i: nat, ptr: nat, scrollY: real, header: nat, y: real, cbs: Callbacks): (r: Option<nat>)
    requires i <= |nodes|
    ensures r.Some? <==> (i <= ptr < |nodes| && Hits(nodes[ptr], scrollY, header, y) && cbs.hasSelect)
    ensures r.Some? ==> r.value == ptr
    decreases |nodes| - i
  {
    if i == |nodes| then None
    else if Hits(nodes[i], scrollY, header, y) && ptr == i && cbs.hasSelect then Some(i)
    else SelectScan(nodes, i + 1, ptr, scrollY, header, y, cbs)
  }

  /** The outcome of a release: the action dispatched, the updated tab
      bookkeeping and the updated stack top. */
  datatype Release = Release(dispatch: Dispatch, categories: Categories, top: StackTop)

  /** A release in the tab bar: the tab under `x`, if any, becomes the
      selected tab and the stack top is relabelled; the list switch is
      requested when the entry offers it. */
  function TabRelease(c: Categories, top: StackTop, x: nat, width: nat, cbs: Callbacks): (r: Release)
    ensures x >= 3 * (width / 3) ==> r == Release(NoAction, c, top)
    ensures x < 3 * (width / 3)
            ==> r.categories == c.(selectionPtr := x / (width / 3))
                && r.top == PreswitchTabs(r.categories, top)
                && (r.dispatch == ListSwitch <==> cbs.hasListSwitch)
    ensures r.dispatch == NoAction || r.dispatch == ListSwitch
  {
    TabAtColumn(x, width);
    match TabScan(x, width, 0)
    case None => Release(NoAction, c, top)
    case Some(i) =>
      var moved := c.(selectionPtr := i);
      Release(if cbs.hasListSwitch then ListSwitch else NoAction, moved, PreswitchTabs(moved, top))
  }

  /** `mui_pointer_up`: a release in the header cancels the current
      selection; in the tab bar it switches to the tab under `x`; in the
      list it selects the entry under `y` when that entry is the pressed
      one. */
  function PointerUp(h: Handle, top: StackTop, s: Screen, nodes: seq<Node>,
                     x: nat, y: nat, ptr: nat, selection: nat, cbs: Callbacks): (r: Release)
    requires s.Valid() && h.tabsHeight < U32_MODULUS
    ensures InHeader(y, s) ==> r == Release(Cancel(selection), h.categories, top)
    ensures !InHeader(y, s) && InTabBar(y, s, h) ==> r == TabRelease(h.categories, top, x, s.width, cbs)
    ensures !InHeader(y, s) && !InTabBar(y, s, h)
            ==> r.categories == h.categories && r.top == top
    ensures !InHeader(y, s) && !InTabBar(y, s, h) ==> r.dispatch == NoAction || r.dispatch.Select?
    ensures r.dispatch.Select? <==>
            (InList(y, ptr, |nodes|, s, h) && ptr < |nodes|
             && Hits(nodes[ptr], h.scrollY, s.header, y as real) && cbs.hasSelect)
    ensures r.dispatch.Select? ==> r.dispatch.entry == ptr
    ensures r.categories.selectionPtrOld == h.categories.selectionPtrOld
  {
    if InHeader(y, s) then Release(Cancel(selection), h.categories, top)
    else if InTabBar(y, s, h) then TabRelease(h.categories, top, x, s.width, cbs)
    else if |nodes| == 0 || ptr <= |nodes| - 1 then
      match SelectScan(nodes, 0, ptr, h.scrollY, s.header, y as real, cbs)
      case None => Release(NoAction, h.categories, top)
      case Some(i) => Release(Select(i), h.categories, top)
    else Release(NoAction, h.categories, top)
  }

  /** `mui_pointer_down`: a press in the list band moves the navigation
      selection to the entry under `y` (the last one the scan finds);
      anywhere else it does nothing. */
  function PointerDown(h: Handle, s: Screen, nodes: seq<Node>, y: nat, ptr: nat): (r: Option<nat>)
    requires s.Valid() && h.tabsHeight < U32_MODULUS
    ensures !InList(y, ptr, |nodes|, s, h) ==> r.None?
    ensures r.Some? ==> r.value < |nodes| && Hits(nodes[r.value], h.scrollY, s.header, y as real)
    ensures InList(y, ptr, |nodes|, s, h) && r.None?
            ==> forall j :: 0 <= j < |nodes| ==> !Hits(nodes[j], h.scrollY, s.header, y as real)
    ensures r.Some?
            ==> (forall j :: r.value < j < |nodes| ==> !Hits(nodes[j], h.scrollY, s.header, y as real))
  {
    if InHeader(y, s) || InTabBar(y, s, h) then None
    else if |nodes| == 0 || ptr <= |nodes| - 1 then LastHit(nodes, h.scrollY, s.header, y as real)
    else None
  }

  /** On a contiguous layout, a press and a release at the same place over
      the pressed entry agree: the press selects it and the release
      activates it. */
  lemma PressThenReleaseSelects(h: Handle, top: StackTop, s: Screen, nodes: seq<Node>,
                                x: nat, y: nat, ptr: nat, selection: nat, cbs: Callbacks)
    requires s.Valid() && h.tabsHeight < U32_MODULUS
    requires Contiguous(nodes) && NonNegativeHeights(nodes)
    requires InList(y, ptr, |nodes|, s, h) && ptr < |nodes|
    requires Hits(nodes[ptr], h.scrollY, s.header, y as real) && cbs.hasSelect
    ensures PointerDown(h, s, nodes, y, ptr) == Some(ptr)
    ensures PointerUp(h, top, s, nodes, x, y, ptr, selection, cbs).dispatch == Select(ptr)
  {
    LastHitFindsTheEntry(nodes, h.scrollY, s.header, y as real, ptr);
  }
}

=== FILE: verbosity.dfy ===
/** The logging switch of the frontend: the verbosity flag, the one-time
    choice of log target, and the gating of the LOG, WARN and ERR entry
    points. Output is recorded as an abstract trace of events instead of
    being written. */
module Verbosity {
  import opened Common

  /** Where log lines go: nowhere (a NULL stream), standard error, or a
      file opened for writing. */
  datatype Target = NullStream | Stderr | LogFile(path: string)

  /** The three statics of the logger. */
  datatype Logger = Logger(target: Target, verbose: bool, fileInitialized: bool)

  /** The state before any call: no stream, quiet, not initialised. */
  const INITIAL: Logger := Logger(NullStream, false, false)

  /** The prefix of a log line: the three standard tags, or one supplied by
      the caller. */
  datatype Tag = TagInfo | TagWarn | TagError | CustomTag(text: string)

  /** Observable effects: the frontend's console being attached or
      detached, and a line (tag and message) written to a target. */
  datatype Event = AttachConsole | DetachConsole | Line(target: Target, tag: Tag, msg: string)

  /** `verbosity_enable`: turns logging on, and attaches the console unless
      a log file has been set up. */
  function Enable(l: Logger): (r: (Logger, seq<Event>))
    ensures r.0.verbose
    ensures r.0.(verbose := l.verbose) == l
    ensures r.1 == (if l.fileInitialized then [] else [AttachConsole])
  {
    (l.(verbose := true), if l.fileInitialized then [] else [AttachConsole])
  }

  /** `verbosity_disable`: turns logging off, and detaches the console
      unless a log file has been set up. */
  function Disable(l: Logger): (r: (Logger, seq<Event>))
    ensures !r.0.verbose
    ensures r.0.(verbose := l.verbose) == l
    ensures r.1 == (if l.fileInitialized then [] else [DetachConsole])
  {
    (l.(verbose := false), if l.fileInitialized then [] else [DetachConsole])
  }

  /** `verbosity_is_enabled`. */
  function IsEnabled(l: Logger): bool
  {
    l.verbose
  }

  /** Enabling then disabling leaves the flag as it was when it was off. */
  lemma EnableDisableRestoresQuiet(l: Logger)
    requires !l.verbose
    ensures Disable(Enable(l).0).0 == l
  {
  }

  /** `retro_main_log_file_init`: does nothing once a log file has been set
      up. Otherwise logs go to standard error; given a path, the file is
      opened (`openSucceeds` says whether `fopen` worked, a failure leaving
      a NULL stream) and the logger counts as set up either way. */
  function InitLogFile(l: Logger, path: Option<string>, openSucceeds: bool): (r: Logger)
    ensures l.fileInitialized ==> r == l
    ensures !l.fileInitialized && path.None? ==> r == l.(target := Stderr)
    ensures !l.fileInitialized && path.Some? ==> r.fileInitialized && r.verbose == l.verbose
    ensures !l.fileInitialized && path.Some? ==>
            r.target == (if openSucceeds then LogFile(path.value) else NullStream)
  {
    if l.fileInitialized then l
    else if path.None? then l.(target := Stderr)
    else l.(target := if openSucceeds then LogFile(path.value) else NullStream,
            fileInitialized := true)
  }

  /** After a call with a path, further calls change nothing. */
  lemma InitLogFileIdempotent(l: Logger, p: string, ok: bool, path: Option<string>, ok2: bool)
    ensures var once := InitLogFile(l, Some(p), ok);
            InitLogFile(once, path, ok2) == once
  {
  }

  /** A call without a path does not use up the one-time setup: a later
      call with a path still opens the file. */
  lemma NullPathLeavesSetupOpen(l: Logger, p: string)
    requires !l.fileInitialized
    ensures InitLogFile(InitLogFile(l, None, false), Some(p), true).target == LogFile(p)
  {
  }

  /** `RARCH_LOG_V`: when logging is on, writes one line to the current
      target with the given tag, or the info tag when the tag is NULL;
      when off, writes nothing. */
  function LogV(l: Logger, tag: Option<Tag>, msg: string): (out: seq<Event>)
    ensures !l.verbose <==> out == []
    ensures l.verbose ==> |out| == 1 && out[0].Line? && out[0].target == l.target && out[0].msg == msg
    ensures l.verbose && tag.None? ==> out[0].tag == TagInfo
    ensures l.verbose && tag.Some? ==> out[0].tag == tag.value
  {
    if !l.verbose then []
    else [Line(l.target, match tag case None => TagInfo case Some(t) => t, msg)]
  }

  /** `RARCH_LOG` and `RARCH_LOG_OUTPUT`: info lines. */
  function Log(l: Logger, msg: string): (out: seq<Event>)
    ensures out == (if l.verbose then [Line(l.target, TagInfo, msg)] else [])
  {
    if !l.verbose then [] else LogV(l, Some(TagInfo), msg)
  }

  /** `RARCH_WARN`: warning lines, gated by `RARCH_LOG_V` alone. */
  function Warn(l: Logger, msg: string): (out: seq<Event>)
    ensures out == (if l.verbose then [Line(l.target, TagWarn, msg)] else [])
  {
    LogV(l, Some(TagWarn), msg)
  }

  /** `RARCH_ERR`: error lines, gated by `RARCH_LOG_V` alone. */
  function Err(l: Logger, msg: string): (out: seq<Event>)
    ensures out == (if l.verbose then [Line(l.target, TagError, msg)] else [])
  {
    LogV(l, Some(TagError), msg)
  }

  /** Calls a program can make on the logger. */
  datatype Op =
    | OpEnable | OpDisable
    | OpInit(path: Option<string>, openSucceeds: bool)
    | OpLog(msg: string) | OpWarn(msg: string) | OpErr(msg: string)
    | OpLogV(tag: Option<Tag>, msg: string)

  /** The effect of one call: the new state and the events it produced. */
  function Step(l: Logger, op: Op): (r: (Logger, seq<Event>))
    ensures !op.OpEnable? && r.0.verbose ==> l.verbose
    ensures op.OpEnable? || op.OpDisable? || r.0.verbose == l.verbose
    ensures l.fileInitialized ==> r.0.fileInitialized
    ensures !l.verbose ==> forall e :: e in r.1 ==> !e.Line?
    ensures l.fileInitialized ==> forall e :: e in r.1 ==> e.Line?
  {
    match op
    case OpEnable => Enable(l)
    case OpDisable => Disable(l)
    case OpInit(path, ok) => (InitLogFile(l, path, ok), [])
    case OpLog(msg) => (l, Log(l, msg))
    case OpWarn(msg) => (l, Warn(l, msg))
    case OpErr(msg) => (l, Err(l, msg))
    case OpLogV(tag, msg) => (l, LogV(l, tag, msg))
  }

  /** Running a sequence of calls: the final state and the whole trace. */
  function Run(l: Logger, ops: seq<Op>): (Logger, seq<Event>)
    decreases |ops|
  {
    if |ops| == 0 then (l, [])
    else
      var (l1, out1) := Step(l, ops[0]);
      var (l2, out2) := Run(l1, ops[1..]);
      (l2, out1 + out2)
  }

  /** The flag a sequence of calls leaves behind, read off the calls
      alone: the last enable or disable decides, and without one the flag
      is what it was. */
  function LastToggle(ops: seq<Op>, before: bool): bool
    decreases |ops|
  {
    if |ops| == 0 then before
    else LastToggle(ops[1..], if ops[0].OpEnable? then true else if ops[0].OpDisable? then false else before)
  }

  /** `verbosity_is_enabled` after any sequence of calls reports the last
      enable or disable, and only those calls move it. */
  lemma {:induction false} IsEnabledAfterRun(l: Logger, ops: seq<Op>)
    ensures IsEnabled(Run(l, ops).0) == LastToggle(ops, IsEnabled(l))
    decreases |ops|
  {
    if |ops| > 0 {
      var (l1, _) := Step(l, ops[0]);
      assert IsEnabled(l1) == (if ops[0].OpEnable? then true else if ops[0].OpDisable? then false else IsEnabled(l));
      IsEnabledAfterRun(l1, ops[1..]);
    }
  }

  /** A program that starts quiet and never enables logging writes no line
      at all, whatever it logs, warns or reports as an error. */
  lemma {:induction false} QuietRunWritesNothing(l: Logger, ops: seq<Op>)
    requires !l.verbose
    requires forall i :: 0 <= i < |ops| ==> !ops[i].OpEnable?
    ensures forall e :: e in Run(l, ops).1 ==> !e.Line?
    ensures !Run(l, ops).0.verbose
    decreases |ops|
  {
    if |ops| > 0 {
      var (l1, out1) := Step(l, ops[0]);
      assert !l1.verbose;
      assert forall e :: e in out1 ==> !e.Line?;
      QuietRunWritesNothing(l1, ops[1..]);
    }
  }

  /** Once the log file is set up, the console is never touched again. */
  lemma {:induction false} SetUpRunLeavesConsole(l: Logger, ops: seq<Op>)
    requires l.fileInitialized
    ensures forall e :: e in Run(l, ops).1 ==> e.Line?
    ensures Run(l, ops).0.fileInitialized
    decreases |ops|
  {
    if |ops| > 0 {
      var (l1, out1) := Step(l, ops[0]);
      assert l1.fileInitialized;
      assert forall e :: e in out1 ==> e.Line?;
      SetUpRunLeavesConsole(l1, ops[1..]);
    }
  }
}
